=== FILE: README.md ===
# Chat assistant answer pipeline — a Dafny model

This project models the only piece of logic in the NFT storefront that is more
than UI wiring: the chat assistant in `src/components/Chatbot.tsx`. It has two
parts.

* **The answer pipeline** (`processUserMessage`). The pipeline lower-cases the
  user's text and extracts a candidate artwork name. It takes the name either
  from the fixed "how much is artwork in usd …" pattern or from the text after
  the rightmost trigger keyword. On the keyword path it then removes filler
  words and collapses white space. It looks the candidate up in the catalog
  (first match in catalog order). It answers with the price, the purchase
  steps, the description or a generic prompt, in that order of precedence.
  Otherwise it lists the catalog when asked to. Otherwise it falls back to the
  hosted language model, or to a fixed message. Every `*` is removed from the
  final text.
* **The chat session** as a state machine. Opening seeds the greeting. Closing
  clears the history and the input box. A blank submission is ignored, and so
  is any submission while a reply is awaited. An accepted submission appends
  the user's message and sets the typing flag. The reply appends one bot
  message and clears the flag.

Modules, following the structure of the source:

| file | module | contents |
|---|---|---|
| `wrappers.dfy` | `Wrappers` | `Option` |
| `strings.dfy` | `Strings` | JavaScript string primitives: ASCII `toLowerCase`, `trim`, `includes`, `indexOf`, `lastIndexOf`, `join`, `split`, and the `\s` / `\w` classes |
| `extraction.dfy` | `Extraction` | candidate extraction: the specific pattern, the keyword scan, filler removal, white-space collapse |
| `catalog.dfy` | `Catalog` | the `Item` record and the catalog lookup |
| `resolver.dfy` | `Resolver` | intent precedence, answer texts, listing, model fallback, `*` removal, `Reply` |
| `session.dfy` | `Session` | messages, the `Chat` state, events, `Step`, `Run` |
| `scenarios.dfy` | `Scenarios` | two worked conversations with a one-item catalog, and a white-space collapse example |

The filler-removal regular expression `/\b(artwork|in usd|usd|in|the|of|an|a|is)\b/gi`
is modelled exactly at the character level, not approximated by tokens.
Without the `u` flag, JavaScript's `\w` and `\b` are ASCII-only, and the
input is already lower-cased, so `StripFillers` scans left to right the way
the engine does. It tries the alternatives in order at each position that
follows a non-word character. It removes the first alternative that is
followed by a non-word character or the end. A word is a maximal run of
`[A-Za-z0-9_]`. Two properties are proved about the keyword-path clean-up.
No word of the final candidate is one of the filler words (`Clean`). The words
of the candidate are exactly the words of the text after the keyword, minus the
filler words, in order (`Words`, `NonFillers`). The "in usd" alternative removes
the two words "in" and "usd", and both are filler words anyway. `\s` and `trim` use the exact ECMAScript
white-space and line-terminator set.

Three details of the code shape the model:

* The optional second price is printed as ` / <polPrice> POL.` after the USD
  sentence.
* The filler expression removes "artwork", "in usd", "usd", "in", "the", "of",
  "an", "a" and "is", in that order of preference at each position.
* The specific "how much is artwork in usd" pattern is used only when the rest
  of its line is non-empty. An empty capture falls through to the keyword path.

Notable consequences proved along the way:

* "usd price of", "what is the price of" and "tell me about" can never win
  the keyword scan. Each ends with another keyword whose last occurrence lies
  further right.
* The "how to buy" test is redundant with the "buy" test.
* An item whose lower-cased name is empty matches every non-empty candidate.

## Model

| member | source | states |
|---|---|---|
| `Strings.Lower` | src/components/Chatbot.tsx:68 | same length; no ASCII capital remains; capitals move up by 32; every other character is unchanged |
| `Strings.IndexOf` | src/components/Chatbot.tsx:81 | -1 exactly when `sub` does not occur; otherwise an occurrence with none further left (where a regular-expression match starts) |
| `Strings.LastIndexOf` | src/components/Chatbot.tsx:94 | -1 exactly when `sub` does not occur; otherwise an occurrence with none further right |
| `Strings.Trim` | src/components/Chatbot.tsx:84 | the result is a slice of the input with only white space outside it; it neither starts nor ends with white space; it is empty exactly when the input is all white space |
| `Strings.Split` | src/components/Chatbot.tsx:200 | the line split the display applies: at least one piece, and no piece holds the separator |
| `Strings.JoinSplit` | src/components/Chatbot.tsx:140 | splitting on a separator and joining with it gives the text back |
| `Strings.SplitJoin` | src/components/Chatbot.tsx:140 | joining separator-free lines and splitting again gives the lines back |
| `Extraction.TakeLine` | src/components/Chatbot.tsx:80 | what `(.*)` captures: a prefix with no line terminator that stops at the end or at a line terminator |
| `Extraction.CaptureAfter` | src/components/Chatbot.tsx:80-84 | no match exactly when the phrase is absent; otherwise the capture is the rest of the line after the leftmost occurrence |
| `Extraction.CandidateAfterPhrase` | src/components/Chatbot.tsx:80-84 | when the phrase first occurs at `i` and a non-empty single line follows it, the candidate is that line, trimmed |
| `Extraction.Winner` | src/components/Chatbot.tsx:87-103 | none exactly when no keyword occurs; otherwise a keyword whose last occurrence is at least as far right as every keyword's, and strictly further right than every keyword listed before it (ties go to the earlier keyword) |
| `Extraction.Rightmost` | src/components/Chatbot.tsx:91-99 | the loop's choice over the keywords' last positions: none exactly when every position is -1; otherwise a largest position, strictly larger than every position before it |
| `Extraction.ShadowedKeyword` | src/components/Chatbot.tsx:93-99 | a keyword containing another keyword past its first character never wins the scan |
| `Extraction.ShadowedKeywords` | src/components/Chatbot.tsx:87 | "usd price of", "what is the price of" and "tell me about" never win the scan |
| `Extraction.FirstAlternative` | src/components/Chatbot.tsx:106 | none exactly when no alternative matches with a word boundary after it; otherwise the first alternative in order that does |
| `Extraction.MatchFillerIffFiller` | src/components/Chatbot.tsx:106 | the expression removes text at a position exactly when the word starting there is a filler word |
| `Extraction.StripOnlyDeletes` | src/components/Chatbot.tsx:106 | removal only deletes characters (the result's multiset is contained in the input's) |
| `Extraction.StripKeepsWords` | src/components/Chatbot.tsx:106 | the words left after removal are exactly the input's words that are not filler words, in order |
| `Extraction.StripClean` | src/components/Chatbot.tsx:106 | after removal no word is a filler word |
| `Extraction.StripFixesClean` | src/components/Chatbot.tsx:106 | text with no filler word passes through removal unchanged |
| `Extraction.StripIdempotent` | src/components/Chatbot.tsx:106 | removing fillers twice is removing them once |
| `Extraction.Collapse` | src/components/Chatbot.tsx:106 | no two adjacent white-space characters remain; the non-white-space characters are kept in order; the text starts with white space exactly when the input did, and otherwise with the input's first character |
| `Extraction.CollapseLeavesSingleSpaces` | src/components/Chatbot.tsx:106 | text with no two adjacent white-space characters is left exactly as it is |
| `Extraction.CollapseRun` | src/components/Chatbot.tsx:106 | a run of two or more white-space characters bounded by non-white-space characters or the ends of the text becomes exactly one `' '`, and the text on each side collapses on its own |
| `Extraction.CollapseAfterVisible` | src/components/Chatbot.tsx:106 | no run crosses a non-white-space character: the text up to one and the text after it collapse separately |
| `Extraction.CollapseKeepsWords` | src/components/Chatbot.tsx:106 | collapsing white space keeps the words, in order: no run vanishes between two words and none is split |
| `Extraction.BorderedWords` | src/components/Chatbot.tsx:106 | removing white space from both ends keeps the words |
| `Extraction.CollapseClean` | src/components/Chatbot.tsx:106 | collapsing white space creates no filler word |
| `Extraction.TrimClean` | src/components/Chatbot.tsx:106 | trimming creates no filler word |
| `Extraction.TrimKeepsNoDoubleSpace` | src/components/Chatbot.tsx:106 | trimming keeps "no two adjacent white-space characters" |
| `Extraction.Tidy` | src/components/Chatbot.tsx:105-107 | the keyword-path result has no white space at either end, no two adjacent white-space characters, no filler word, and its words are exactly the input's non-filler words, in order |
| `Extraction.TidyCleanText` | src/components/Chatbot.tsx:105-107 | on text without a filler word, the keyword-path clean-up only collapses white space and trims |
| `Extraction.KeywordCut` | src/components/Chatbot.tsx:91-103 | 0 when no keyword occurs; otherwise the cut falls just after the last occurrence of the winning keyword |
| `Extraction.WinnerIsRightmost` | src/components/Chatbot.tsx:91-99 | the keyword occurrence starting furthest right wins, and among keywords starting there the one listed first |
| `Extraction.PatternCandidate` | src/components/Chatbot.tsx:83-84 | the trimmed capture has no white space at either end and occurs in the input |
| `Extraction.KeywordCandidate` | src/components/Chatbot.tsx:85-107 | the text after the cut, tidied: no white space at either end, no two adjacent white-space characters, and exactly the non-filler words of the text after the cut |
| `Extraction.Candidate` | src/components/Chatbot.tsx:78-108 | the candidate is trimmed on both paths; on the pattern path it is text that occurs in the input; on the keyword path it has no double white space, and its words are the non-filler words after the cut |
| `Extraction.NoKeywordCandidate` | src/components/Chatbot.tsx:85-107 | without the specific pattern and without any keyword, the candidate is the whole input tidied |
| `Extraction.RightmostKeywordCandidate` | src/components/Chatbot.tsx:85-107 | without the specific pattern, the candidate is the tidied text after the keyword occurrence starting furthest right (ties to the keyword listed first) |
| `Catalog.FindFrom` | src/components/Chatbot.tsx:112-116 | the first item from `from` on that matches, and none exactly when no item from there matches |
| `Catalog.Identify` | src/components/Chatbot.tsx:111-117 | an empty candidate identifies nothing; otherwise the result is a matching item with no matching item before it, or nothing when no item matches |
| `Catalog.EmptyNameMatchesEverything` | src/components/Chatbot.tsx:114 | an item with an empty lower-cased name matches every candidate |
| `Resolver.AsksBuyIsBuy` | src/components/Chatbot.tsx:128 | asking "how to buy" or "buy" is the same as containing "buy" |
| `Resolver.Classify` | src/components/Chatbot.tsx:120-135 | price exactly when the name and a price word occur; purchase exactly when the name and "buy" occur and no price word does; description exactly when neither of those holds and "description" or "about" occurs; generic otherwise |
| `Resolver.PriceText` | src/components/Chatbot.tsx:124-127 | the text is the USD sentence, followed by ` / <polPrice> POL.` exactly when a POL price is present |
| `Resolver.PriceTextShowsPrices` | src/components/Chatbot.tsx:124-127 | the price answer contains the USD price, and the POL price when present |
| `Resolver.BuyText` | src/components/Chatbot.tsx:129 | the purchase answer opens with "To buy " |
| `Resolver.DescriptionTextShowsDescription` | src/components/Chatbot.tsx:131 | the description answer contains the item's description |
| `Resolver.ItemAnswer` | src/components/Chatbot.tsx:120-135 | an identified item always gets a non-empty answer, so listing and the model are skipped |
| `Resolver.ListAll` | src/components/Chatbot.tsx:140 | the listing is never empty |
| `Resolver.ListAllLines` | src/components/Chatbot.tsx:140 | split into lines, the listing is the heading followed by exactly one line per entry, in catalog order, line `k + 1` being `- <name> (<symbol>)` of entry `k` (one empty line for an empty catalog) |
| `Resolver.Resolve` | src/components/Chatbot.tsx:111-141 | a local answer is never empty; there is none exactly when no item is identified and no listing is asked for; without an item, a listing request gives the listing |
| `Resolver.PriceQueryShowsPrices` | src/components/Chatbot.tsx:123-127 | a price question naming the identified item is answered with its price text, which shows the USD price and, if any, the POL price |
| `Resolver.BuyQueryShowsSteps` | src/components/Chatbot.tsx:128-129 | a question spelling out the identified item's name with "buy" and no price word is answered with the purchase steps |
| `Resolver.AboutShowsDescription` | src/components/Chatbot.tsx:130-131 | an "about"/"description" question is answered with the description unless it spells out the name together with a price word or "buy" |
| `Resolver.UnclearQueryGetsPrompt` | src/components/Chatbot.tsx:132-134 | an identified item whose question is neither a price or buy question spelling out its name nor an "about"/"description" question gets the generic prompt |
| `Resolver.RemoveStars` | src/components/Chatbot.tsx:168 | no `*` remains, and every other character keeps its number of occurrences |
| `Resolver.RemoveStarsAppend` | src/components/Chatbot.tsx:168 | removal works piece by piece, so kept characters stay in order |
| `Resolver.RemoveStarsKeepsStarFree` | src/components/Chatbot.tsx:168 | text without `*` is unchanged |
| `Resolver.RemoveStarsIdempotent` | src/components/Chatbot.tsx:168 | removing twice is removing once |
| `Resolver.FixedMessagesStarFree` | src/components/Chatbot.tsx:144-168 | the two fixed fallback messages pass through the `*` removal unchanged |
| `Resolver.Reply` | src/components/Chatbot.tsx:143-168 | the reply has no `*`; with no local answer and no model it is the "trouble connecting" message; with no local answer and a failing model it is the "encountered an issue" message |
| `Resolver.LocalAnswerIgnoresModel` | src/components/Chatbot.tsx:144 | a local answer does not depend on the model or its configuration, and is shown with `*` removed |
| `Resolver.ModelAnswerShown` | src/components/Chatbot.tsx:157-159 | without a local answer, the model is asked with the text as typed and its answer is shown with `*` removed |
| `Session.Step` | src/components/Chatbot.tsx:48-65 | each event adds at most one message; apart from open and close the history only grows at the end; typing starts only by a submission; blank or busy submissions change nothing; an accepted one appends the typed text as a user message, sets typing and clears the input; a reply appends one bot message and clears typing; opening shows just the greeting; closing empties history and input |
| `Session.StepKeepsValid` | src/components/Chatbot.tsx:48-55 | every event keeps the state valid: closed means empty input and bot-only history, open means the greeting comes first |
| `Session.RunKeepsValid` | src/components/Chatbot.tsx:48-65 | any sequence of events keeps the state valid |
| `Session.Reachable` | src/components/Chatbot.tsx:12-15 | every state reached from the initial state is valid |
| `Session.CloseThenOpenResets` | src/components/Chatbot.tsx:48-55 | closing and reopening leaves only the greeting and an empty input |
| `Session.SubmitThenAnswer` | src/components/Chatbot.tsx:57-65 | an accepted submission and its reply add exactly the user's message and the bot's, and re-enable input |
| `Session.SubmitThenReply` | src/components/Chatbot.tsx:60-63 | an accepted submission followed by the pipeline's reply appends exactly the typed text as a user message and the reply to that same text as a bot message |
| `Session.TypingBlocksSubmissions` | src/components/Chatbot.tsx:211-215 | while a reply is awaited, no event sequence without the reply adds a user message, and the flag stays set |
| `Scenarios.PriceExample` | src/components/Chatbot.tsx:80-127 | "how much is artwork in usd Eternal Bloom" with a one-item catalog gets "Eternal Bloom (ETB) costs $120 USD." |
| `Scenarios.NoModelExample` | src/components/Chatbot.tsx:144-146 | "Hi" with no match and no model gets the "trouble connecting" message |
| `Scenarios.TabRunExample` | src/components/Chatbot.tsx:106 | two lower-case words separated by two tabs, as in "eternal\t\tbloom", collapse to the words separated by one space |

## Left out

- The language-model call (src/components/Chatbot.tsx:18-40, 149-159) is a foreign network service. The model keeps two parts of it. `hasModel` says whether a client exists. `ask` is an arbitrary function from the typed text to `Answered(text)` or `Failed`. The API key lookup, the model name, the generation and safety settings, and the two-turn persona history are not modelled.
- Logging with `console.error` (lines 23, 161) has no effect on the state.
- Rendering is UI and is not modelled: scrolling and the DOM refs (42-46), the JSX, and the line breaks of the display (173-218). Only the enabling conditions of the input box and the Send button are modelled (211-215), and `split('\n')` serves as the reference for the listing's lines.
- Timing. A local answer is computed without awaiting anything, so React applies "typing on" and "typing off" in one batch. The model keeps `Submit` and `ReplyArrives` as separate events; `SubmitThenReply` states their combined effect. A reply that lands after the window was closed or reopened still appends, and `ReplyArrives` has no guard for that.
- `Strings.Lower`: lower-cases ASCII letters only, because full Unicode case mapping is out of scope. Characters are Unicode scalar values, not UTF-16 code units.
- The catalog data module `src/data/nftData` is not part of this model. The catalog is a parameter. The prices are the strings the templates interpolate. A falsy POL price is `None`. The item's `id` is never read by the chat code and is left out.
- `Resolver.BuyText`: its contract states only the opening words. The full fixed purchase text is its definition.
- `Extraction.Tidy`: its own contract pins down the words of the result but not the characters between them. The white space between them is fixed through `Collapse` by `CollapseRun` and `CollapseLeavesSingleSpaces`, and `TidyCleanText` connects the two for text without a filler word. No lemma tracks the punctuation that removal and collapse keep, character by character.
- Open/Close when the window is already in that state, and Edit/Submit while it is closed, are modelled as no-ops. The buttons and the input box that raise them are not rendered in those states.
- `src/components/DropCard.tsx`, `src/App.tsx` and `src/main.tsx` are not modelled. They are views over the wallet/claim SDK, the page layout and the application bootstrap.

=== FILE: catalog.dfy ===
/**
 * The artwork catalog and the lookup of the item a candidate name refers to
 * (src/components/Chatbot.tsx, lines 111-117). The catalog itself is loaded
 * from a data module outside this model, so it is a parameter here.
 */
module Catalog {
  import opened Wrappers
  import opened Strings

  /** One catalog entry. The prices are kept as the text the answer templates
      interpolate; `polPrice` is `None` when the entry's POL price is falsy. */
  datatype Item = Item(
    name: string,
    symbol: string,
    description: string,
    usdPrice: string,
    polPrice: Option<string>
  )

  /** The `find` predicate: the lower-cased name contains the candidate, or the
      candidate contains the lower-cased name, or the lower-cased symbol is the candidate. */
  predicate Matches(item: Item, candidate: string) {
    || Contains(Lower(item.name), candidate)
    || Contains(candidate, Lower(item.name))
    || Lower(item.symbol) == candidate
  }

  /** The first item from index `from` on that matches `candidate`. */
  function FindFrom(catalog: seq<Item>, candidate: string, from: nat): (r: Option<nat>)
    requires from <= |catalog|
    ensures r.None? <==> forall j :: from <= j < |catalog| ==> !Matches(catalog[j], candidate)
    ensures r.Some? ==> from <= r.value < |catalog| && Matches(catalog[r.value], candidate)
    ensures r.Some? ==> forall j :: from <= j < r.value ==> !Matches(catalog[j], candidate)
    decreases |catalog| - from
  {
    if from == |catalog| then None
    else if Matches(catalog[from], candidate) then Some(from)
    else FindFrom(catalog, candidate, from + 1)
  }

  /** The index of the item the candidate names: none for an empty candidate,
      otherwise the first item in catalog order that matches. */
  function Identify(catalog: seq<Item>, candidate: string): (r: Option<nat>)
    ensures candidate == [] ==> r.None?
    ensures candidate != [] && r.None? ==> forall j :: 0 <= j < |catalog| ==> !Matches(catalog[j], candidate)
    ensures r.Some? ==> r.value < |catalog| && Matches(catalog[r.value], candidate)
    ensures r.Some? ==> forall j :: 0 <= j < r.value ==> !Matches(catalog[j], candidate)
  {
    if candidate == [] then None else FindFrom(catalog, candidate, 0)
  }

  /** An item whose lower-cased name is empty matches every non-empty candidate,
      so it shadows every item after it. */
  lemma EmptyNameMatchesEverything(item: Item, candidate: string)
    requires Lower(item.name) == []
    ensures Matches(item, candidate)
  {
    assert OccursAt(candidate, Lower(item.name), 0);
  }
}

=== FILE: extraction.dfy ===
/**
 * Step 1 of the chat assistant's answer pipeline: from the lower-cased user
 * input, extract the candidate artwork name that is then looked up in the
 * catalog (src/components/Chatbot.tsx, lines 78-108).
 */
module Extraction {
  import opened Wrappers
  import opened Strings

  /** The literal part of the pattern `/how much is artwork in usd (.*)/i`. */
  const SpecificPhrase: string := "how much is artwork in usd "

  /** The trigger keywords, in the order the scan visits them. */
  const Keywords: seq<string> := [
    "price of", "cost of", "usd price of", "description of", "about",
    "buy", "how much is", "what is the price of", "tell me about"
  ]

  /** The alternatives of `/\b(artwork|in usd|usd|in|the|of|an|a|is)\b/gi`, in order. */
  const FillerAlternatives: seq<string> := ["artwork", "in usd", "usd", "in", "the", "of", "an", "a", "is"]

  /** The single words among the alternatives; "in usd" is two of them. */
  const FillerWords: seq<string> := ["artwork", "usd", "in", "the", "of", "an", "a", "is"]

  // ---------------------------------------------------------------------
  // The specific price pattern
  // ---------------------------------------------------------------------

  /** What `(.*)` captures: the text up to the first line terminator. */
  function TakeLine(s: string): (r: string)
    ensures |r| <= |s| && r == s[..|r|]
    ensures forall i :: 0 <= i < |r| ==> !IsLineTerminator(r[i])
    ensures |r| == |s| || IsLineTerminator(s[|r|])
  {
    if |s| == 0 || IsLineTerminator(s[0]) then [] else [s[0]] + TakeLine(s[1..])
  }

  /** `cap` is the rest of the line after an occurrence of `phrase` at `i`. */
  predicate CapturedAt(lower: string, phrase: string, i: int, cap: string) {
    && OccursAt(lower, phrase, i)
    && i + |phrase| + |cap| <= |lower|
    && lower[i + |phrase|..i + |phrase| + |cap|] == cap
    && (forall k :: 0 <= k < |cap| ==> !IsLineTerminator(cap[k]))
    && (i + |phrase| + |cap| == |lower| || IsLineTerminator(lower[i + |phrase| + |cap|]))
  }

  /** As `CapturedAt`, at the leftmost occurrence of `phrase`. */
  predicate FirstCapturedAt(lower: string, phrase: string, i: int, cap: string) {
    CapturedAt(lower, phrase, i, cap) && forall j :: 0 <= j < i ==> !OccursAt(lower, phrase, j)
  }

  /** Group 1 of `lower.match(/<phrase>(.*)/)`, or `None` when there is no match.
      The match is found at the leftmost occurrence of `phrase`. */
  function CaptureAfter(lower: string, phrase: string): (r: Option<string>)
    ensures r.None? <==> !Contains(lower, phrase)
    ensures r.Some? ==> exists i :: FirstCapturedAt(lower, phrase, i, r.value)
  {
    var i := IndexOf(lower, phrase);
    if i < 0 then None
    else
      var cap := TakeLine(lower[i + |phrase|..]);
      assert FirstCapturedAt(lower, phrase, i, cap);
      Some(cap)
  }

  /** Group 1 of `lower.match(/how much is artwork in usd (.*)/i)`. */
  function SpecificCapture(lower: string): Option<string> {
    CaptureAfter(lower, SpecificPhrase)
  }

  // ---------------------------------------------------------------------
  // The keyword scan
  // ---------------------------------------------------------------------

  /** The index of the keyword the `for` loop settles on: the one whose last
      occurrence is rightmost, the earliest listed among equals (the loop
      only replaces its choice on a strictly greater index); `None` when no
      keyword occurs. */
  function Winner(s: string, kws: seq<string>): (r: Option<nat>)
    ensures r.None? <==> forall j :: 0 <= j < |kws| ==> LastIndexOf(s, kws[j]) == -1
    ensures r.Some? ==> r.value < |kws| && LastIndexOf(s, kws[r.value]) >= 0
    ensures r.Some? ==> forall j :: 0 <= j < |kws| ==> LastIndexOf(s, kws[j]) <= LastIndexOf(s, kws[r.value])
    ensures r.Some? ==> forall j :: 0 <= j < r.value ==> LastIndexOf(s, kws[j]) < LastIndexOf(s, kws[r.value])
  {
    Rightmost(Positions(s, kws))
  }

  /** The last position of each keyword, -1 for a keyword that does not occur. */
  function Positions(s: string, kws: seq<string>): (r: seq<int>)
    ensures |r| == |kws|
    ensures forall j :: 0 <= j < |kws| ==> r[j] == LastIndexOf(s, kws[j]) && r[j] >= -1
  {
    if |kws| == 0 then [] else [LastIndexOf(s, kws[0])] + Positions(s, kws[1..])
  }

  /** The loop over the positions: the first index holding the largest
      position, or `None` when every position is -1. */
  function Rightmost(idx: seq<int>): (r: Option<nat>)
    requires forall j :: 0 <= j < |idx| ==> idx[j] >= -1
    ensures r.None? <==> forall j :: 0 <= j < |idx| ==> idx[j] == -1
    ensures r.Some? ==> r.value < |idx| && idx[r.value] >= 0
    ensures r.Some? ==> forall j :: 0 <= j < |idx| ==> idx[j] <= idx[r.value]
    ensures r.Some? ==> forall j :: 0 <= j < r.value ==> idx[j] < idx[r.value]
  {
    if |idx| == 0 then None
    else
      var n := |idx| - 1;
      var init := idx[..n];
      assert forall j :: 0 <= j < n ==> init[j] == idx[j];
      var prev := Rightmost(init);
      if prev.None? then
        if idx[n] >= 0 then Some(n) else None
      else if idx[n] > idx[prev.value] then Some(n)
      else prev
  }

  lemma OccursWithin(s: string, big: string, p: int, small: string, off: int)
    requires OccursAt(s, big, p) && OccursAt(big, small, off)
    ensures OccursAt(s, small, p + off)
  {
    forall k | 0 <= k < |small|
      ensures s[p + off + k] == small[k]
    {
      assert s[p + off + k] == s[p..p + |big|][off + k];
      assert small[k] == big[off..off + |small|][k];
    }
    assert s[p + off..p + off + |small|] == small;
  }

  /** A keyword that has another keyword inside it, past its first character,
      never wins the scan: the inner keyword's last occurrence lies further right. */
  lemma ShadowedKeyword(s: string, kws: seq<string>, outer: nat, inner: nat, off: nat)
    requires outer < |kws| && inner < |kws|
    requires off > 0 && OccursAt(kws[outer], kws[inner], off)
    ensures Winner(s, kws) != Some(outer)
  {
    var p := LastIndexOf(s, kws[outer]);
    if p >= 0 {
      OccursWithin(s, kws[outer], p, kws[inner], off);
    }
  }

  lemma KeywordsWithin()
    ensures OccursAt(Keywords[2], Keywords[0], 4)
    ensures OccursAt(Keywords[7], Keywords[0], 12)
    ensures OccursAt(Keywords[8], Keywords[4], 8)
  {
  }

  /** "usd price of", "what is the price of" and "tell me about" never win the
      scan: each ends with a shorter keyword ("price of", "price of", "about")
      whose last occurrence is then strictly further right. */
  lemma ShadowedKeywords(s: string)
    ensures Winner(s, Keywords) != Some(2)
    ensures Winner(s, Keywords) != Some(7)
    ensures Winner(s, Keywords) != Some(8)
  {
    KeywordsWithin();
    ShadowedKeyword(s, Keywords, 2, 0, 4);
    ShadowedKeyword(s, Keywords, 7, 0, 12);
    ShadowedKeyword(s, Keywords, 8, 4, 8);
  }

  // ---------------------------------------------------------------------
  // Filler-word removal, `.replace(/\b(...)\b/gi, "")`
  // ---------------------------------------------------------------------

  /** `\b` holds just after the first `n` characters of `t` (each alternative ends in a letter). */
  predicate BoundaryAfter(t: string, n: int) {
    n == |t| || (0 <= n < |t| && !IsWordChar(t[n]))
  }

  /** Alternative `w` matches at the start of `t`, trailing `\b` included. */
  predicate AltMatches(t: string, w: string) {
    OccursAt(t, w, 0) && BoundaryAfter(t, |w|)
  }

  /** The first alternative, in order, that matches at the start of `t`. */
  function FirstAlternative(t: string, alts: seq<string>): (r: Option<nat>)
    ensures r.None? <==> forall k :: 0 <= k < |alts| ==> !AltMatches(t, alts[k])
    ensures r.Some? ==> r.value < |alts| && AltMatches(t, alts[r.value])
    ensures r.Some? ==> forall k :: 0 <= k < r.value ==> !AltMatches(t, alts[k])
  {
    if |alts| == 0 then None
    else if AltMatches(t, alts[0]) then Some(0)
    else
      var rest := FirstAlternative(t, alts[1..]);
      assert forall k :: 1 <= k < |alts| ==> alts[1..][k - 1] == alts[k];
      if rest.Some? then Some(rest.value + 1) else None
  }

  /** The length of the filler alternative the regular expression removes at the start of `t`. */
  function MatchFiller(t: string): (r: Option<nat>)
    ensures r.Some? ==> 0 < r.value <= |t|
  {
    var k := FirstAlternative(t, FillerAlternatives);
    if k.Some? then Some(|FillerAlternatives[k.value]|) else None
  }

  /** The global replace: scanning left to right, a filler alternative is
      removed wherever it starts at a word boundary (`prevWord` says whether
      the character before `s` is a word character) and ends at one. */
  function StripFillers(s: string, prevWord: bool): (r: string)
    ensures |r| <= |s|
    decreases |s|
  {
    if |s| == 0 then []
    else if prevWord then
      assert s == [s[0]] + s[1..];
      [s[0]] + StripFillers(s[1..], IsWordChar(s[0]))
    else
      var m := MatchFiller(s);
      if m.Some? then
        assert s == s[..m.value] + s[m.value..];
        StripFillers(s[m.value..], true)
      else
        assert s == [s[0]] + s[1..];
        [s[0]] + StripFillers(s[1..], IsWordChar(s[0]))
  }

  // ---------------------------------------------------------------------
  // White-space collapse, `.replace(/\s\s+/g, ' ')`
  // ---------------------------------------------------------------------

  /** The length of the white-space run `s` starts with. */
  function SpaceRun(s: string): (r: nat)
    ensures r <= |s|
    ensures forall i :: 0 <= i < r ==> IsSpace(s[i])
    ensures r == |s| || !IsSpace(s[r])
  {
    if |s| > 0 && IsSpace(s[0]) then 1 + SpaceRun(s[1..]) else 0
  }

  /** No two adjacent characters of `s` are both white space. */
  predicate NoDoubleSpace(s: string) {
    forall i :: 0 <= i < |s| - 1 ==> !(IsSpace(s[i]) && IsSpace(s[i + 1]))
  }

  /** The characters of `s` that are not white space, in order. */
  function Visible(s: string): string {
    if |s| == 0 then [] else (if IsSpace(s[0]) then [] else [s[0]]) + Visible(s[1..])
  }

  lemma {:induction false} VisibleSkipsSpaces(s: string, k: nat)
    requires k <= |s|
    requires forall i :: 0 <= i < k ==> IsSpace(s[i])
    ensures Visible(s) == Visible(s[k..])
  {
    if k > 0 {
      assert s[1..][k - 1..] == s[k..];
      VisibleSkipsSpaces(s[1..], k - 1);
    }
  }

  /** Every run of two or more white-space characters becomes one space;
      a lone white-space character is left as it is. */
  function Collapse(s: string): (r: string)
    ensures NoDoubleSpace(r)
    ensures Visible(r) == Visible(s)
    ensures |r| == 0 <==> |s| == 0
    ensures |s| > 0 ==> (IsSpace(r[0]) <==> IsSpace(s[0]))
    ensures |s| > 0 && !IsSpace(s[0]) ==> r[0] == s[0]
    decreases |s|
  {
    if |s| >= 2 && IsSpace(s[0]) && IsSpace(s[1]) then
      var k := SpaceRun(s);
      VisibleSkipsSpaces(s, k);
      [' '] + Collapse(s[k..])
    else if |s| == 0 then []
    else
      [s[0]] + Collapse(s[1..])
  }

  /** Text without a double white space is left exactly as it is. */
  lemma {:induction false} CollapseLeavesSingleSpaces(s: string)
    requires NoDoubleSpace(s)
    ensures Collapse(s) == s
    decreases |s|
  {
    if |s| > 0 {
      assert NoDoubleSpace(s[1..]) by {
        forall i | 0 <= i < |s| - 2
          ensures !(IsSpace(s[1..][i]) && IsSpace(s[1..][i + 1]))
        {
          assert s[1..][i] == s[i + 1] && s[1..][i + 1] == s[i + 2];
        }
      }
      CollapseLeavesSingleSpaces(s[1..]);
      assert s == [s[0]] + s[1..];
    }
  }

  /** A run of two or more white-space characters between two
      non-white-space characters (or the ends of the text) becomes
      exactly one `' '`, and the text on either side collapses on its own. */
  lemma CollapseRun(a: string, w: string, b: string)
    requires |w| >= 2 && forall i :: 0 <= i < |w| ==> IsSpace(w[i])
    requires a == [] || !IsSpace(a[|a| - 1])
    requires b == [] || !IsSpace(b[0])
    ensures Collapse(a + w + b) == Collapse(a) + " " + Collapse(b)
  {
    var t := w + b;
    ConcatAssoc(a, w, b);
    CollapseAfterVisible(a, t);
    CollapseRunStart(w, b);
    JoinAround(Collapse(a + t), Collapse(a), Collapse(t), " ", Collapse(b));
  }

  lemma ConcatAssoc<T>(x: seq<T>, y: seq<T>, z: seq<T>)
    ensures x + y + z == x + (y + z)
  {
  }

  lemma DropConcat<T>(x: seq<T>, y: seq<T>, k: nat)
    requires k <= |x|
    ensures (x + y)[k..] == x[k..] + y
  {
  }

  lemma JoinAround<T>(x: seq<T>, y: seq<T>, z: seq<T>, p: seq<T>, u: seq<T>)
    requires x == y + z && z == p + u
    ensures x == y + p + u
  {
  }

  /** Collapsing stops at a non-white-space character: the text before it
      and the text after it collapse separately. */
  lemma {:induction false} CollapseAfterVisible(a: string, t: string)
    requires a == [] || !IsSpace(a[|a| - 1])
    ensures Collapse(a + t) == Collapse(a) + Collapse(t)
    decreases |a|
  {
    if |a| == 0 {
      assert a + t == t;
    } else if |a| >= 2 && IsSpace(a[0]) && IsSpace(a[1]) {
      CollapseAfterVisible(a[SpaceRun(a)..], t);
      CollapseAfterRunStep(a, t);
    } else {
      CollapseAfterVisible(a[1..], t);
      CollapseAfterCharStep(a, t);
    }
  }

  /** The step of `CollapseAfterVisible` when `a` opens with a run. */
  lemma CollapseAfterRunStep(a: string, t: string)
    requires |a| >= 2 && IsSpace(a[0]) && IsSpace(a[1]) && !IsSpace(a[|a| - 1])
    requires Collapse(a[SpaceRun(a)..] + t) == Collapse(a[SpaceRun(a)..]) + Collapse(t)
    ensures Collapse(a + t) == Collapse(a) + Collapse(t)
  {
    var k := SpaceRun(a);
    var rest := a[k..];
    SpaceRunIs(a + t, k);
    DropConcat(a, t, k);
    CollapseRunHead(a + t);
    CollapseRunHead(a);
    Regroup(Collapse(a + t), [' '], Collapse(rest + t), Collapse(rest), Collapse(t), Collapse(a));
  }

  /** The step of `CollapseAfterVisible` when `a` opens with anything else. */
  lemma CollapseAfterCharStep(a: string, t: string)
    requires |a| >= 1 && !(|a| >= 2 && IsSpace(a[0]) && IsSpace(a[1])) && !IsSpace(a[|a| - 1])
    requires Collapse(a[1..] + t) == Collapse(a[1..]) + Collapse(t)
    ensures Collapse(a + t) == Collapse(a) + Collapse(t)
  {
    var rest := a[1..];
    DropConcat(a, t, 1);
    if |a| >= 2 {
      assert (a + t)[1] == a[1];
    }
    CollapseVisibleHead(a + t);
    CollapseVisibleHead(a);
    Regroup(Collapse(a + t), [a[0]], Collapse(rest + t), Collapse(rest), Collapse(t), Collapse(a));
  }

  lemma CollapseRunHead(s: string)
    requires |s| >= 2 && IsSpace(s[0]) && IsSpace(s[1])
    ensures Collapse(s) == [' '] + Collapse(s[SpaceRun(s)..])
  {
  }

  lemma CollapseVisibleHead(s: string)
    requires |s| >= 1 && !(|s| >= 2 && IsSpace(s[0]) && IsSpace(s[1]))
    ensures Collapse(s) == [s[0]] + Collapse(s[1..])
  {
  }

  lemma Regroup<T>(x: seq<T>, p: seq<T>, m: seq<T>, y: seq<T>, z: seq<T>, c: seq<T>)
    requires x == p + m && m == y + z && c == p + y
    ensures x == c + z
  {
  }

  /** A text opening with a run of two or more white-space characters
      collapses to one `' '` followed by the collapsed rest. */
  lemma CollapseRunStart(w: string, b: string)
    requires |w| >= 2 && forall i :: 0 <= i < |w| ==> IsSpace(w[i])
    requires b == [] || !IsSpace(b[0])
    ensures Collapse(w + b) == " " + Collapse(b)
  {
    SpaceRunIs(w + b, |w|);
    assert (w + b)[|w|..] == b;
  }

  /** `SpaceRun` is the only length meeting its three ensures. */
  lemma SpaceRunIs(s: string, n: nat)
    requires n <= |s|
    requires forall i :: 0 <= i < n ==> IsSpace(s[i])
    requires n == |s| || !IsSpace(s[n])
    ensures SpaceRun(s) == n
  {
  }

  // ---------------------------------------------------------------------
  // The candidate
  // ---------------------------------------------------------------------

  /** The clean-up of the keyword path: remove fillers, collapse white space, trim. */
  function Tidy(s: string): (r: string)
    ensures Trimmed(r)
    ensures NoDoubleSpace(r)
    ensures Clean(r, false)
    ensures Words(r) == NonFillers(Words(s))
  {
    var stripped := StripFillers(s, false);
    var collapsed := Collapse(stripped);
    StripClean(s, false);
    CollapseClean(stripped, false);
    TrimClean(collapsed);
    TrimKeepsNoDoubleSpace(collapsed);
    StripKeepsWords(s);
    CollapseKeepsWords(stripped);
    BorderedWords(collapsed, Trim(collapsed));
    Trim(collapsed)
  }

  /** On text with no filler word, tidying only collapses white space and
      trims; with `CollapseRun`, every inner run of two or more white-space
      characters becomes one `' '`. */
  lemma TidyCleanText(s: string)
    requires Clean(s, false)
    ensures Tidy(s) == Trim(Collapse(s))
  {
    StripFixesClean(s, false);
  }

  /** The specific price pattern applies: it matched and its capture is non-empty. */
  predicate UsesSpecificPattern(lower: string) {
    var cap := SpecificCapture(lower);
    cap.Some? && cap.value != []
  }

  /** Where the keyword path cuts `lower`: just after the winning keyword's last occurrence, or 0. */
  function KeywordCut(lower: string): (r: nat)
    ensures r <= |lower|
    ensures Winner(lower, Keywords).None? ==> r == 0
    ensures Winner(lower, Keywords).Some? ==>
      var kw := Keywords[Winner(lower, Keywords).value];
      r >= |kw| && r - |kw| == LastIndexOf(lower, kw) && OccursAt(lower, kw, r - |kw|)
  {
    var w := Winner(lower, Keywords);
    if w.Some? then CutAfter(lower, Keywords[w.value]) else 0
  }

  function CutAfter(s: string, kw: string): (r: nat)
    requires LastIndexOf(s, kw) >= 0
    ensures |kw| <= r <= |s| && OccursAt(s, kw, r - |kw|)
  {
    LastIndexOf(s, kw) + |kw|
  }

  /** `searchStringForNftName`: the candidate artwork name in the lower-cased input. */
  function Candidate(lower: string): (r: string)
    ensures Trimmed(r)
    ensures UsesSpecificPattern(lower) ==> Contains(lower, r)
    ensures !UsesSpecificPattern(lower) ==> NoDoubleSpace(r) && Clean(r, false)
    ensures !UsesSpecificPattern(lower) ==> Words(r) == NonFillers(Words(lower[KeywordCut(lower)..]))
  {
    if UsesSpecificPattern(lower) then PatternCandidate(lower) else KeywordCandidate(lower)
  }

  /** The keyword path: the text after the winning keyword, tidied. */
  function KeywordCandidate(lower: string): (r: string)
    ensures Trimmed(r)
    ensures NoDoubleSpace(r) && Clean(r, false)
    ensures Words(r) == NonFillers(Words(lower[KeywordCut(lower)..]))
  {
    Tidy(lower[KeywordCut(lower)..])
  }

  /** Without the specific pattern and without any keyword, the whole input is tidied. */
  lemma NoKeywordCandidate(lower: string)
    requires !UsesSpecificPattern(lower)
    requires forall j :: 0 <= j < |Keywords| ==> !Contains(lower, Keywords[j])
    ensures Candidate(lower) == Tidy(lower)
  {
    assert Winner(lower, Keywords).None?;
    assert lower[0..] == lower;
  }

  /** `kws[k]` occurs at `p`, no keyword occurs further right, and no keyword
      listed before `kws[k]` also occurs at `p`. */
  ghost predicate RightmostOccurrence(s: string, kws: seq<string>, k: nat, p: int) {
    && k < |kws| && OccursAt(s, kws[k], p)
    && forall j, q :: 0 <= j < |kws| && OccursAt(s, kws[j], q) ==> q < p || (q == p && k <= j)
  }

  /** Without the specific pattern, the candidate is the tidied text after
      the keyword occurrence that starts furthest right; among keywords
      starting there, the one listed first wins. */
  lemma RightmostKeywordCandidate(lower: string, k: nat, p: int)
    requires !UsesSpecificPattern(lower)
    requires RightmostOccurrence(lower, Keywords, k, p)
    ensures Candidate(lower) == Tidy(lower[p + |Keywords[k]|..])
  {
    var kw := Keywords[k];
    var cut := KeywordCut(lower);
    assert cut == p + |kw| by {
      WinnerIsRightmost(lower, Keywords, k, p);
    }
    KeywordPathIsTidy(lower);
    assert lower[cut..] == lower[p + |kw|..];
  }

  /** The scan settles on the keyword occurrence that starts furthest right,
      the earliest listed keyword among those starting there. */
  lemma WinnerIsRightmost(s: string, kws: seq<string>, k: nat, p: int)
    requires RightmostOccurrence(s, kws, k, p)
    ensures Winner(s, kws) == Some(k) && LastIndexOf(s, kws[k]) == p
  {
    assert Contains(s, kws[k]);
    var m := Winner(s, kws).value;
    var pk := LastIndexOf(s, kws[k]);
    var pm := LastIndexOf(s, kws[m]);
    assert pk == p;
    assert pm == p && k <= m;
    assert k == m;
  }

  lemma KeywordPathIsTidy(lower: string)
    requires !UsesSpecificPattern(lower)
    ensures Candidate(lower) == Tidy(lower[KeywordCut(lower)..])
  {
  }

  /** The specific-pattern path: the capture, trimmed. */
  function PatternCandidate(lower: string): (r: string)
    requires SpecificCapture(lower).Some?
    ensures Trimmed(r)
    ensures Contains(lower, r)
  {
    var cap := SpecificCapture(lower).value;
    TrimmedCaptureInInput(lower, SpecificPhrase, cap);
    Trim(cap)
  }

  lemma TrimmedCaptureInInput(lower: string, phrase: string, cap: string)
    requires CaptureAfter(lower, phrase) == Some(cap)
    ensures Contains(lower, Trim(cap))
  {
    var i :| FirstCapturedAt(lower, phrase, i, cap);
    TrimOfSlice(lower, i + |phrase|, cap);
  }

  /** The trim of a slice of `s` occurs in `s`. */
  lemma TrimOfSlice(s: string, off: int, t: string)
    requires 0 <= off && off + |t| <= |s| && s[off..off + |t|] == t
    ensures Contains(s, Trim(t))
  {
    BorderedSliceOccurs(s, off, t, Trim(t));
  }

  lemma BorderedSliceOccurs(s: string, off: int, t: string, r: string)
    requires 0 <= off && off + |t| <= |s| && s[off..off + |t|] == t
    requires exists a :: SpaceBordered(t, r, a)
    ensures Contains(s, r)
  {
    var a :| SpaceBordered(t, r, a);
    SliceOfSlice(s, off, t, a, r);
  }

  lemma SliceOfSlice(s: string, off: int, t: string, a: int, r: string)
    requires 0 <= off && off + |t| <= |s| && s[off..off + |t|] == t
    requires 0 <= a && a + |r| <= |t| && t[a..a + |r|] == r
    ensures OccursAt(s, r, off + a)
    ensures Contains(s, r)
  {
    forall k | 0 <= k < |r|
      ensures s[off + a + k] == r[k]
    {
      assert s[off + a + k] == s[off..off + |t|][a + k];
      assert r[k] == t[a..a + |r|][k];
    }
    assert s[off + a..off + a + |r|] == r;
    assert OccursAt(s, r, off + a);
  }

  /** When the phrase first occurs at `i` and the rest of the input after it
      is one non-empty line, the candidate is that rest, trimmed. */
  lemma CandidateAfterPhrase(lower: string, i: nat)
    requires OccursAt(lower, SpecificPhrase, i)
    requires forall j :: 0 <= j < i ==> !OccursAt(lower, SpecificPhrase, j)
    requires i + |SpecificPhrase| < |lower|
    requires forall k :: i + |SpecificPhrase| <= k < |lower| ==> !IsLineTerminator(lower[k])
    ensures Candidate(lower) == Trim(lower[i + |SpecificPhrase|..])
  {
    var rest := lower[i + |SpecificPhrase|..];
    CaptureIsRestOfLine(lower, SpecificPhrase, i);
    assert SpecificCapture(lower) == Some(rest);
    assert UsesSpecificPattern(lower);
    assert PatternCandidate(lower) == Trim(rest);
  }

  lemma CaptureIsRestOfLine(lower: string, phrase: string, i: nat)
    requires OccursAt(lower, phrase, i)
    requires forall j :: 0 <= j < i ==> !OccursAt(lower, phrase, j)
    requires forall k :: i + |phrase| <= k < |lower| ==> !IsLineTerminator(lower[k])
    ensures CaptureAfter(lower, phrase) == Some(lower[i + |phrase|..])
  {
    assert IndexOf(lower, phrase) == i;
    var rest := lower[i + |phrase|..];
    var cap := TakeLine(rest);
    assert forall k :: 0 <= k < |rest| ==> rest[k] == lower[i + |phrase| + k];
    assert cap == rest;
  }

  // ---------------------------------------------------------------------
  // Word structure: what "no standalone filler word" means, and its proofs
  // ---------------------------------------------------------------------

  /** The maximal run of word characters `s` starts with. */
  function LeadingWord(s: string): (r: string)
    ensures |r| <= |s| && r == s[..|r|]
    ensures forall i :: 0 <= i < |r| ==> IsWordChar(r[i])
    ensures BoundaryAfter(s, |r|)
  {
    if |s| > 0 && IsWordChar(s[0]) then [s[0]] + LeadingWord(s[1..]) else []
  }

  predicate IsFiller(w: string) {
    w in FillerWords
  }

  /** Whether the character before index `i` of `r` is a word character;
      `pw` says it for index 0. */
  predicate PrecededByWord(r: string, i: int, pw: bool)
    requires 0 <= i <= |r|
  {
    if i == 0 then pw else IsWordChar(r[i - 1])
  }

  /** No word of `r` (a maximal run of word characters) is a filler word. */
  predicate Clean(r: string, pw: bool) {
    forall i :: 0 <= i < |r| && !PrecededByWord(r, i, pw) ==> !IsFiller(LeadingWord(r[i..]))
  }

  lemma {:induction false} LeadingWordOfMatch(t: string, w: string)
    requires forall i :: 0 <= i < |w| ==> IsWordChar(w[i])
    requires AltMatches(t, w)
    ensures LeadingWord(t) == w
  {
    if |w| > 0 {
      assert t[1..][..|w| - 1] == w[1..];
      LeadingWordOfMatch(t[1..], w[1..]);
    }
  }

  /** Every filler alternative is made of word characters, except "in usd",
      which starts with the filler word "in" followed by a space. */
  lemma FillerAlternativeShapes()
    ensures forall k :: 0 <= k < |FillerAlternatives| && FillerAlternatives[k] != "in usd" ==>
      forall i :: 0 <= i < |FillerAlternatives[k]| ==> IsWordChar(FillerAlternatives[k][i])
    ensures forall k :: 0 <= k < |FillerAlternatives| && FillerAlternatives[k] != "in usd" ==>
      IsFiller(FillerAlternatives[k])
    ensures IsFiller("in")
  {
  }

  lemma MatchFillerIsFiller(t: string)
    requires MatchFiller(t).Some?
    ensures IsFiller(LeadingWord(t))
  {
    var k := FirstAlternative(t, FillerAlternatives).value;
    FillerAlternativeShapes();
    MatchedAlternativeIsFiller(t, FillerAlternatives[k]);
  }

  lemma MatchedAlternativeIsFiller(t: string, w: string)
    requires AltMatches(t, w)
    requires w == "in usd" || ((forall i :: 0 <= i < |w| ==> IsWordChar(w[i])) && IsFiller(w))
    requires IsFiller("in")
    ensures IsFiller(LeadingWord(t))
  {
    if w == "in usd" {
      assert AltMatches(t, "in");
      LeadingWordOfMatch(t, "in");
    } else {
      LeadingWordOfMatch(t, w);
    }
  }

  lemma FillerIsMatchFiller(t: string)
    requires IsFiller(LeadingWord(t))
    ensures MatchFiller(t).Some?
  {
    var lw := LeadingWord(t);
    assert AltMatches(t, lw);
    var j :| 0 <= j < |FillerWords| && FillerWords[j] == lw;
    var k := if j == 0 then 0 else j + 1;
    assert FillerAlternatives[k] == lw;
  }

  /** The regular expression removes something at the start of `t` exactly
      when the word `t` starts with is a filler word. */
  lemma MatchFillerIffFiller(t: string)
    ensures MatchFiller(t).Some? <==> IsFiller(LeadingWord(t))
  {
    if MatchFiller(t).Some? {
      MatchFillerIsFiller(t);
    }
    if IsFiller(LeadingWord(t)) {
      FillerIsMatchFiller(t);
    }
  }

  /** With a word character before it, the removal leaves the first word alone. */
  lemma {:induction false} StripKeepsLeadingWord(s: string)
    ensures LeadingWord(StripFillers(s, true)) == LeadingWord(s)
  {
    if |s| > 0 && IsWordChar(s[0]) {
      StripKeepsLeadingWord(s[1..]);
    }
  }

  /** Right after a removed filler the next character is not a word character,
      so it does not matter what the scan believes precedes it. */
  lemma StripAfterNonWord(s: string)
    requires s == [] || !IsWordChar(s[0])
    ensures StripFillers(s, true) == StripFillers(s, false)
  {
    if s != [] {
      MatchFillerIffFiller(s);
    }
  }

  lemma ConsClean(c: char, r: string, pw: bool)
    requires Clean(r, IsWordChar(c))
    requires pw || !IsFiller(LeadingWord([c] + r))
    ensures Clean([c] + r, pw)
  {
    var cr := [c] + r;
    forall i | 0 <= i < |cr| && !PrecededByWord(cr, i, pw)
      ensures !IsFiller(LeadingWord(cr[i..]))
    {
      if i > 0 {
        assert cr[i..] == r[i - 1..];
        assert PrecededByWord(cr, i, pw) == PrecededByWord(r, i - 1, IsWordChar(c));
      }
    }
  }

  lemma SuffixClean(s: string, pw: bool, k: nat)
    requires Clean(s, pw)
    requires 0 < k <= |s|
    ensures Clean(s[k..], IsWordChar(s[k - 1]))
  {
    var t := s[k..];
    forall i | 0 <= i < |t| && !PrecededByWord(t, i, IsWordChar(s[k - 1]))
      ensures !IsFiller(LeadingWord(t[i..]))
    {
      assert t[i..] == s[k + i..];
      assert PrecededByWord(s, k + i, pw) == PrecededByWord(t, i, IsWordChar(s[k - 1]));
    }
  }

  lemma {:induction false} LeadingWordOfPrefix(u: string, m: nat)
    requires BoundaryAfter(u, m)
    ensures LeadingWord(u[..m]) == LeadingWord(u)
  {
    if m > 0 && IsWordChar(u[0]) {
      assert u[..m][1..] == u[1..][..m - 1];
      LeadingWordOfPrefix(u[1..], m - 1);
    }
  }

  lemma PrefixClean(s: string, pw: bool, m: nat)
    requires Clean(s, pw)
    requires BoundaryAfter(s, m)
    ensures Clean(s[..m], pw)
  {
    var t := s[..m];
    forall i | 0 <= i < |t| && !PrecededByWord(t, i, pw)
      ensures !IsFiller(LeadingWord(t[i..]))
    {
      PrefixWordAt(s, m, i);
      assert PrecededByWord(s, i, pw) == PrecededByWord(t, i, pw);
    }
  }

  /** Cutting `s` at a word boundary leaves the word at each earlier index alone. */
  lemma PrefixWordAt(s: string, m: nat, i: nat)
    requires BoundaryAfter(s, m) && i < m
    ensures LeadingWord(s[..m][i..]) == LeadingWord(s[i..])
  {
    var u := s[i..];
    assert BoundaryAfter(u, m - i) by {
      if m < |s| {
        assert u[m - i] == s[m];
      }
    }
    assert s[..m][i..] == u[..m - i];
    LeadingWordOfPrefix(u, m - i);
  }

  /** After the removal, no word is a filler word. */
  lemma {:induction false} StripClean(s: string, pw: bool)
    ensures Clean(StripFillers(s, pw), pw)
    decreases |s|
  {
    if |s| > 0 {
      var m := if pw then None else MatchFiller(s);
      if m.Some? {
        StripAfterNonWord(s[m.value..]);
        StripClean(s[m.value..], false);
      } else {
        var w := IsWordChar(s[0]);
        StripClean(s[1..], w);
        StripKeepsHeadWord(s, pw);
        ConsClean(s[0], StripFillers(s[1..], w), pw);
      }
    }
  }

  /** When no filler is removed at the head of `s`, the word `s` starts with
      survives the removal in the rest, and it is not a filler. */
  lemma StripKeepsHeadWord(s: string, pw: bool)
    requires |s| > 0 && (pw || MatchFiller(s).None?)
    ensures pw || !IsFiller(LeadingWord([s[0]] + StripFillers(s[1..], IsWordChar(s[0]))))
  {
    if !pw && IsWordChar(s[0]) {
      StripKeepsLeadingWord(s[1..]);
      MatchFillerIffFiller(s);
      assert LeadingWord([s[0]] + StripFillers(s[1..], true)) == LeadingWord(s);
    }
  }

  /** A string that is already clean passes through the removal unchanged. */
  lemma {:induction false} StripFixesClean(s: string, pw: bool)
    requires Clean(s, pw)
    ensures StripFillers(s, pw) == s
    decreases |s|
  {
    if |s| > 0 {
      if !pw {
        CleanHeadUnmatched(s);
      }
      StripCopies(s, pw);
      if |s| > 1 {
        SuffixClean(s, pw, 1);
      }
      StripFixesClean(s[1..], IsWordChar(s[0]));
      assert s == [s[0]] + s[1..];
    }
  }

  /** Where no word character precedes it, a clean string starts with no filler alternative. */
  lemma CleanHeadUnmatched(s: string)
    requires Clean(s, false) && |s| > 0
    ensures MatchFiller(s).None?
  {
    MatchFillerIffFiller(s);
    assert s[0..] == s;
  }

  /** Removing the fillers twice is removing them once. */
  lemma StripIdempotent(s: string)
    ensures StripFillers(StripFillers(s, false), false) == StripFillers(s, false)
  {
    StripClean(s, false);
    StripFixesClean(StripFillers(s, false), false);
  }

  lemma {:induction false} CollapseKeepsLeadingWord(s: string)
    ensures LeadingWord(Collapse(s)) == LeadingWord(s)
    decreases |s|
  {
    if |s| > 0 && IsWordChar(s[0]) {
      CollapseKeepsLeadingWord(s[1..]);
    }
  }

  lemma {:induction false} CollapseClean(s: string, pw: bool)
    requires Clean(s, pw)
    ensures Clean(Collapse(s), pw)
    decreases |s|
  {
    if |s| >= 2 && IsSpace(s[0]) && IsSpace(s[1]) {
      var k := SpaceRun(s);
      SpaceRunClean(s, pw);
      CollapseClean(s[k..], false);
      ConsClean(' ', Collapse(s[k..]), pw);
    } else if |s| > 0 {
      if |s| > 1 {
        SuffixClean(s, pw, 1);
        CollapseClean(s[1..], IsWordChar(s[0]));
      }
      CollapseKeepsHeadWord(s, pw);
      ConsClean(s[0], Collapse(s[1..]), pw);
    }
  }

  /** What follows a white-space run of a clean string is clean. */
  lemma SpaceRunClean(s: string, pw: bool)
    requires Clean(s, pw) && |s| > 0 && IsSpace(s[0])
    ensures Clean(s[SpaceRun(s)..], false)
  {
    var k := SpaceRun(s);
    SpaceIsNotWord(s[k - 1]);
    SuffixClean(s, pw, k);
  }

  /** Collapsing the rest of `s` leaves the word `s` starts with as it was. */
  lemma CollapseKeepsHeadWord(s: string, pw: bool)
    requires Clean(s, pw) && |s| > 0
    ensures pw || !IsFiller(LeadingWord([s[0]] + Collapse(s[1..])))
  {
    assert s[0..] == s;
    assert !pw ==> !IsFiller(LeadingWord(s));
    if IsWordChar(s[0]) {
      CollapseKeepsLeadingWord(s[1..]);
      assert LeadingWord([s[0]] + Collapse(s[1..])) == [s[0]] + LeadingWord(s[1..]);
    }
  }

  lemma TrimClean(s: string)
    requires Clean(s, false)
    ensures Clean(Trim(s), false)
  {
    BorderedClean(s, Trim(s));
  }

  lemma BorderedClean(s: string, r: string)
    requires Clean(s, false)
    requires exists a :: SpaceBordered(s, r, a)
    ensures Clean(r, false)
  {
    var a :| SpaceBordered(s, r, a);
    var t := s[a..];
    if a > 0 {
      SpaceIsNotWord(s[a - 1]);
      SuffixClean(s, false, a);
    } else {
      assert t == s;
    }
    assert r == t[..|r|];
    PrefixClean(t, false, |r|);
  }

  lemma TrimKeepsNoDoubleSpace(s: string)
    requires NoDoubleSpace(s)
    ensures NoDoubleSpace(Trim(s))
  {
    BorderedNoDoubleSpace(s, Trim(s));
  }

  lemma BorderedNoDoubleSpace(s: string, r: string)
    requires NoDoubleSpace(s)
    requires exists a :: SpaceBordered(s, r, a)
    ensures NoDoubleSpace(r)
  {
    var a :| SpaceBordered(s, r, a);
    forall i | 0 <= i < |r| - 1
      ensures !(IsSpace(r[i]) && IsSpace(r[i + 1]))
    {
      assert r[i] == s[a + i] && r[i + 1] == s[a + i + 1];
    }
  }

  // ---------------------------------------------------------------------
  // The words of a text, and what each clean-up step does to them
  // ---------------------------------------------------------------------

  /** The words of `s` (its maximal runs of word characters), in order. */
  function Words(s: string): seq<string>
    decreases |s|
  {
    if |s| == 0 then []
    else if !IsWordChar(s[0]) then Words(s[1..])
    else
      var w := LeadingWord(s);
      assert w[0] == s[0];
      [w] + Words(s[|w|..])
  }

  /** The words of `ws` that are not filler words, in order. */
  function NonFillers(ws: seq<string>): (r: seq<string>)
    ensures |r| <= |ws|
    ensures forall k :: 0 <= k < |r| ==> !IsFiller(r[k])
  {
    if |ws| == 0 then [] else (if IsFiller(ws[0]) then [] else [ws[0]]) + NonFillers(ws[1..])
  }

  lemma {:induction false} NonFillersAppend(a: seq<string>, b: seq<string>)
    ensures NonFillers(a + b) == NonFillers(a) + NonFillers(b)
  {
    if |a| > 0 {
      assert (a + b)[1..] == a[1..] + b;
      NonFillersAppend(a[1..], b);
    } else {
      assert a + b == b;
    }
  }

  /** Writing `x` just before `z` does not join a word of `x` to a word of `z`. */
  predicate Separated(x: string, z: string) {
    x == [] || z == [] || !IsWordChar(x[|x| - 1]) || !IsWordChar(z[0])
  }

  /** Non-word characters at the start of a text hold no word. */
  lemma {:induction false} WordsSkip(s: string, k: nat)
    requires k <= |s|
    requires forall i :: 0 <= i < k ==> !IsWordChar(s[i])
    ensures Words(s) == Words(s[k..])
  {
    if k > 0 {
      assert s[1..][k - 1..] == s[k..];
      WordsSkip(s[1..], k - 1);
    }
  }

  lemma WordsOfWord(w: string)
    requires w != []
    requires forall i :: 0 <= i < |w| ==> IsWordChar(w[i])
    ensures Words(w) == [w]
  {
    assert w[0..|w|] == w;
    LeadingWordOfMatch(w, w);
    assert w[|w|..] == [];
  }

  lemma LeadingWordOfJoin(x: string, z: string)
    requires x != [] && Separated(x, z)
    ensures LeadingWord(x + z) == LeadingWord(x)
  {
    var w := LeadingWord(x);
    assert (x + z)[0..|w|] == w;
    if |w| < |x| {
      assert (x + z)[|w|] == x[|w|];
    } else if z != [] {
      assert x[|x| - 1] == w[|w| - 1];
      assert (x + z)[|w|] == z[0];
    }
    LeadingWordOfMatch(x + z, w);
  }

  /** The words of two separated texts are the words of the first, then those of the second. */
  lemma {:induction false} WordsAppend(x: string, z: string)
    requires Separated(x, z)
    ensures Words(x + z) == Words(x) + Words(z)
    decreases |x|
  {
    if x == [] {
      assert x + z == z;
    } else if !IsWordChar(x[0]) {
      assert Words(x + z) == Words(x[1..] + z) by {
        assert (x + z)[0] == x[0];
        assert (x + z)[1..] == x[1..] + z;
      }
      SeparatedSuffix(x, z, 1);
      WordsAppend(x[1..], z);
    } else {
      var w := LeadingWord(x);
      var y := x[|w|..];
      JoinFirstWord(x, z, w, y);
      SeparatedSuffix(x, z, |w|);
      WordsAppend(y, z);
      assert Words(x) == [w] + Words(y);
      ConsJoin(w, Words(y), Words(z), Words(x));
    }
  }

  lemma SeparatedSuffix(x: string, z: string, k: nat)
    requires k <= |x| && Separated(x, z)
    ensures Separated(x[k..], z)
  {
    if k < |x| {
      assert x[k..][|x| - k - 1] == x[|x| - 1];
    }
  }

  /** When `x` starts with the word `w`, so does `x + z`. */
  lemma JoinFirstWord(x: string, z: string, w: string, y: string)
    requires x != [] && IsWordChar(x[0]) && Separated(x, z)
    requires w == LeadingWord(x) && y == x[|w|..]
    ensures Words(x + z) == [w] + Words(y + z)
  {
    LeadingWordOfJoin(x, z);
    assert (x + z)[0] == x[0];
    assert (x + z)[|w|..] == y + z;
  }

  /** What the regular expression removes at the start of `t`: the leading
      word, or "in usd"; either way a word boundary follows. */
  lemma MatchFillerShape(t: string)
    requires MatchFiller(t).Some?
    ensures BoundaryAfter(t, MatchFiller(t).value)
    ensures MatchFiller(t).value == |LeadingWord(t)| || (MatchFiller(t).value == 6 && t[..6] == "in usd")
  {
    var k := FirstAlternative(t, FillerAlternatives).value;
    var w := FillerAlternatives[k];
    FillerAlternativeShapes();
    if w != "in usd" {
      LeadingWordOfMatch(t, w);
    }
  }

  /** A text that starts with the word `w` has `w` as its first word. */
  lemma WordsStartingWith(s: string, w: string)
    requires w != [] && forall i :: 0 <= i < |w| ==> IsWordChar(w[i])
    requires AltMatches(s, w)
    ensures Words(s) == [w] + Words(s[|w|..])
  {
    LeadingWordOfMatch(s, w);
    assert s[0] == w[0];
  }

  /** One non-word character and then the word `v`: `v` is the first word. */
  lemma SkipThenWord(x: string, v: string)
    requires v != [] && forall i :: 0 <= i < |v| ==> IsWordChar(v[i])
    requires 1 + |v| <= |x| && !IsWordChar(x[0])
    requires x[1..1 + |v|] == v && BoundaryAfter(x, 1 + |v|)
    ensures Words(x) == [v] + Words(x[1 + |v|..])
  {
    var t := x[1..];
    WordsSkip(x, 1);
    assert t[0..|v|] == v;
    assert BoundaryAfter(t, |v|);
    WordsStartingWith(t, v);
    assert t[|v|..] == x[1 + |v|..];
  }

  /** The text "in usd" holds the two words "in" and "usd". */
  lemma WordsOfInUsd(a: string)
    requires a == "in usd"
    ensures Words(a) == ["in", "usd"]
  {
    assert a[0..2] == "in" && a[2] == ' ' && a[3..] == "usd";
    var x := a[2..];
    assert Words(a) == ["in"] + Words(x) by {
      WordsStartingWith(a, "in");
    }
    assert Words(x) == ["usd"] by {
      assert x[1..4] == a[3..];
      assert x[4..] == [];
      SkipThenWord(x, "usd");
    }
  }

  /** "in usd" is the two words "in" and "usd". */
  lemma InUsdWords(s: string)
    requires |s| >= 6 && s[..6] == "in usd" && BoundaryAfter(s, 6)
    ensures Words(s) == ["in", "usd"] + Words(s[6..])
  {
    var a := s[..6];
    var rest := s[6..];
    assert s == a + rest;
    if rest != [] {
      assert rest[0] == s[6];
    }
    WordsAppend(a, rest);
    WordsOfInUsd(a);
  }

  /** A run of word characters passes through the collapse unchanged. */
  lemma {:induction false} CollapsePastWord(w: string, y: string)
    requires forall i :: 0 <= i < |w| ==> IsWordChar(w[i])
    ensures Collapse(w + y) == w + Collapse(y)
  {
    if w == [] {
      assert w + y == y;
    } else {
      var t := w + y;
      SpaceIsNotWord(w[0]);
      assert t[0] == w[0] && t[1..] == w[1..] + y;
      assert Collapse(t) == [w[0]] + Collapse(t[1..]);
      CollapsePastWord(w[1..], y);
      ConsJoin(w[0], w[1..], Collapse(y), w);
    }
  }

  /** Collapsing white space keeps the words, in order. */
  lemma {:induction false} CollapseKeepsWords(s: string)
    ensures Words(Collapse(s)) == Words(s)
    decreases |s|
  {
    if |s| >= 2 && IsSpace(s[0]) && IsSpace(s[1]) {
      var k := SpaceRun(s);
      assert Words(Collapse(s)) == Words(Collapse(s[k..])) by {
        var c := Collapse(s[k..]);
        assert Collapse(s) == [' '] + c;
        assert ([' '] + c)[1..] == c;
      }
      assert Words(s) == Words(s[k..]) by {
        forall i | 0 <= i < k
          ensures !IsWordChar(s[i])
        {
          SpaceIsNotWord(s[i]);
        }
        WordsSkip(s, k);
      }
      CollapseKeepsWords(s[k..]);
    } else if |s| > 0 && !IsWordChar(s[0]) {
      assert Words(Collapse(s)) == Words(Collapse(s[1..])) by {
        var c := Collapse(s[1..]);
        assert Collapse(s) == [s[0]] + c;
        assert ([s[0]] + c)[1..] == c;
      }
      CollapseKeepsWords(s[1..]);
    } else if |s| > 0 {
      var w := LeadingWord(s);
      var rest := s[|w|..];
      CollapseWordFirst(s, w, rest);
      CollapseKeepsWords(rest);
    }
  }

  /** The first step of `CollapseKeepsWords` when `s` starts with the word `w`. */
  lemma CollapseWordFirst(s: string, w: string, rest: string)
    requires |s| > 0 && IsWordChar(s[0]) && w == LeadingWord(s) && rest == s[|w|..]
    ensures Words(Collapse(s)) == [w] + Words(Collapse(rest))
    ensures Words(s) == [w] + Words(rest)
  {
    var c := Collapse(rest);
    assert s == w + rest;
    CollapsePastWord(w, rest);
    assert Separated(w, c) by {
      if rest != [] {
        SpaceIsNotWord(rest[0]);
        SpaceIsNotWord(c[0]);
      }
    }
    WordsAppend(w, c);
    WordsOfWord(w);
  }

  /** Removing white space from both ends keeps the words. */
  lemma BorderedWords(s: string, r: string)
    requires exists a :: SpaceBordered(s, r, a)
    ensures Words(r) == Words(s)
  {
    var a :| SpaceBordered(s, r, a);
    var tail := s[a + |r|..];
    forall i | 0 <= i < |s| && (i < a || a + |r| <= i)
      ensures !IsWordChar(s[i])
    {
      SpaceIsNotWord(s[i]);
    }
    WordsSkip(s, a);
    assert s[a..] == r + tail;
    WordsSkip(tail, |tail|);
    assert tail[|tail|..] == [];
    if tail != [] {
      assert tail[0] == s[a + |r|];
    }
    WordsAppend(r, tail);
  }

  /** Removal only deletes characters: every character of the result is one of the input's. */
  lemma {:induction false} StripOnlyDeletes(s: string, pw: bool)
    ensures multiset(StripFillers(s, pw)) <= multiset(s)
    decreases |s|
  {
    if |s| > 0 {
      if pw || MatchFiller(s).None? {
        var t := s[1..];
        StripCopies(s, pw);
        StripOnlyDeletes(t, IsWordChar(s[0]));
        MultisetConsLe(s[0], StripFillers(t, IsWordChar(s[0])), t);
        assert s == [s[0]] + t;
      } else {
        var n := MatchFiller(s).value;
        assert StripFillers(s, pw) == StripFillers(s[n..], true);
        StripOnlyDeletes(s[n..], true);
        MultisetSuffixLe(s, n);
      }
    }
  }

  lemma MultisetConsLe<T>(a: T, r: seq<T>, t: seq<T>)
    requires multiset(r) <= multiset(t)
    ensures multiset([a] + r) <= multiset([a] + t)
  {
  }

  lemma MultisetSuffixLe<T>(s: seq<T>, n: nat)
    requires n <= |s|
    ensures multiset(s[n..]) <= multiset(s)
  {
    assert s == s[..n] + s[n..];
  }

  /** Where nothing is removed, the scan copies one character. */
  lemma StripCopies(s: string, pw: bool)
    requires s != [] && (pw || MatchFiller(s).None?)
    ensures StripFillers(s, pw) == [s[0]] + StripFillers(s[1..], IsWordChar(s[0]))
  {
  }

  /** With a word character before it, the scan copies a run of word characters unchanged. */
  lemma {:induction false} StripPastWord(w: string, y: string)
    requires forall i :: 0 <= i < |w| ==> IsWordChar(w[i])
    ensures StripFillers(w + y, true) == w + StripFillers(y, true)
  {
    if w == [] {
      assert w + y == y;
    } else {
      assert StripFillers(w + y, true) == [w[0]] + StripFillers(w[1..] + y, true) by {
        var t := w + y;
        assert t[0] == w[0] && t[1..] == w[1..] + y;
        StripCopies(t, true);
      }
      StripPastWord(w[1..], y);
      ConsJoin(w[0], w[1..], StripFillers(y, true), w);
    }
  }

  /** Filler removal keeps exactly the words that are not filler words, in order. */
  lemma {:induction false} StripKeepsWords(s: string)
    ensures Words(StripFillers(s, false)) == NonFillers(Words(s))
    decreases |s|
  {
    if s == [] {
      return;
    }
    var w := LeadingWord(s);
    if !IsWordChar(s[0]) {
      StripNonWordFirst(s);
      StripKeepsWords(s[1..]);
    } else if IsFiller(w) {
      var n := StripFillerWord(s);
      StripKeepsWords(s[n..]);
    } else {
      StripWordFirst(s, w, s[|w|..]);
      StripKeepsWords(s[|w|..]);
    }
  }

  /** The first step of `StripKeepsWords` when `s` starts with a non-word character. */
  lemma StripNonWordFirst(s: string)
    requires s != [] && !IsWordChar(s[0])
    ensures Words(StripFillers(s, false)) == Words(StripFillers(s[1..], false))
    ensures Words(s) == Words(s[1..])
  {
    var x := StripFillers(s[1..], false);
    MatchFillerIffFiller(s);
    StripCopies(s, false);
    assert ([s[0]] + x)[1..] == x;
  }

  /** The first step of `StripKeepsWords` when `s` starts with the non-filler word `w`. */
  lemma StripWordFirst(s: string, w: string, rest: string)
    requires s != [] && IsWordChar(s[0]) && w == LeadingWord(s) && !IsFiller(w) && rest == s[|w|..]
    ensures Words(StripFillers(s, false)) == [w] + Words(StripFillers(rest, false))
    ensures NonFillers(Words(s)) == [w] + NonFillers(Words(rest))
  {
    var x := StripFillers(rest, false);
    StripCopiesWord(s, w, rest);
    WordsAppend(w, x);
    WordsOfWord(w);
    assert Words(s) == [w] + Words(rest);
  }

  /** A leading non-filler word is copied, and what follows it is stripped on its own. */
  lemma StripCopiesWord(s: string, w: string, rest: string)
    requires s != [] && IsWordChar(s[0]) && w == LeadingWord(s) && !IsFiller(w) && rest == s[|w|..]
    ensures StripFillers(s, false) == w + StripFillers(rest, false)
    ensures Separated(w, StripFillers(rest, false))
  {
    var x := StripFillers(rest, false);
    MatchFillerIffFiller(s);
    StripCopies(s, false);
    assert s[1..] == w[1..] + rest;
    StripAfterWord(w[1..], rest);
    ConsJoin(s[0], w[1..], x, w);
    if rest != [] {
      StripKeepsNonWordHead(rest);
    }
  }

  /** A filler word at the start goes, with "usd" too when the match is "in usd":
      the rest is scanned afresh, and the words dropped are all filler words. */
  lemma StripFillerWord(s: string) returns (n: nat)
    requires s != [] && IsFiller(LeadingWord(s))
    ensures 0 < n <= |s|
    ensures StripFillers(s, false) == StripFillers(s[n..], false)
    ensures NonFillers(Words(s)) == NonFillers(Words(s[n..]))
  {
    var w := LeadingWord(s);
    MatchFillerIffFiller(s);
    n := MatchFiller(s).value;
    MatchFillerShape(s);
    StripSkipsMatch(s, n);
    if n == |w| {
      assert Words(s) == [w] + Words(s[n..]);
      NonFillersAppend([w], Words(s[n..]));
    } else {
      InUsdWords(s);
      NonFillersAppend(["in", "usd"], Words(s[6..]));
    }
  }

  /** What the regular expression removes is dropped, and the scan resumes after it. */
  lemma StripSkipsMatch(s: string, n: nat)
    requires MatchFiller(s) == Some(n) && BoundaryAfter(s, n)
    ensures StripFillers(s, false) == StripFillers(s[n..], false)
  {
    assert StripFillers(s, false) == StripFillers(s[n..], true);
    StripAfterNonWord(s[n..]);
  }

  lemma ConsJoin<T>(a: T, u: seq<T>, v: seq<T>, w: seq<T>)
    requires w == [a] + u
    ensures [a] + (u + v) == w + v
  {
  }

  /** After a word character, a run of word characters is copied and the
      rest is scanned afresh. */
  lemma StripAfterWord(w: string, rest: string)
    requires forall i :: 0 <= i < |w| ==> IsWordChar(w[i])
    requires rest == [] || !IsWordChar(rest[0])
    ensures StripFillers(w + rest, true) == w + StripFillers(rest, false)
  {
    StripPastWord(w, rest);
    StripAfterNonWord(rest);
  }

  /** A text that starts with a non-word character keeps that character first. */
  lemma StripKeepsNonWordHead(s: string)
    requires s != [] && !IsWordChar(s[0])
    ensures StripFillers(s, false) != [] && StripFillers(s, false)[0] == s[0]
  {
    MatchFillerIffFiller(s);
    StripCopies(s, false);
  }
}

=== FILE: resolver.dfy ===
/**
 * The chat assistant's answer pipeline, `processUserMessage`
 * (src/components/Chatbot.tsx, lines 67-171): identify an item and the
 * question about it, or list the catalog, or ask the hosted language model,
 * and finally strip every `*` from the answer.
 */
module Resolver {
  import opened Wrappers
  import opened Strings
  import opened Catalog
  import opened Extraction

  // ---------------------------------------------------------------------
  // What the question is about
  // ---------------------------------------------------------------------

  datatype Intent = AskPrice | AskBuy | AskDescription | AskGeneral

  predicate MentionsName(lower: string, item: Item) {
    Contains(lower, Lower(item.name))
  }

  predicate AsksPrice(lower: string) {
    Contains(lower, "price") || Contains(lower, "cost") || Contains(lower, "usd") || Contains(lower, "how much")
  }

  predicate AsksBuy(lower: string) {
    Contains(lower, "how to buy") || Contains(lower, "buy")
  }

  predicate AsksDescription(lower: string) {
    Contains(lower, "description") || Contains(lower, "about")
  }

  /** "how to buy" contains "buy", so the first test of `AsksBuy` adds nothing. */
  lemma AsksBuyIsBuy(lower: string)
    ensures AsksBuy(lower) <==> Contains(lower, "buy")
  {
    if Contains(lower, "how to buy") {
      var i :| 0 <= i <= |lower| - 10 && OccursAt(lower, "how to buy", i);
      assert lower[i + 7..i + 10] == lower[i..i + 10][7..10];
      assert OccursAt(lower, "buy", i + 7);
    }
  }

  /** The `if`/`else if` chain deciding which answer an identified item gets. */
  function Classify(lower: string, item: Item): (r: Intent)
    ensures r == AskPrice <==> MentionsName(lower, item) && AsksPrice(lower)
    ensures r == AskBuy <==> MentionsName(lower, item) && !AsksPrice(lower) && Contains(lower, "buy")
    ensures r == AskDescription <==>
      !(MentionsName(lower, item) && (AsksPrice(lower) || Contains(lower, "buy"))) && AsksDescription(lower)
    ensures r == AskGeneral <==>
      !(MentionsName(lower, item) && (AsksPrice(lower) || Contains(lower, "buy"))) && !AsksDescription(lower)
  {
    AsksBuyIsBuy(lower);
    if MentionsName(lower, item) && AsksPrice(lower) then AskPrice
    else if MentionsName(lower, item) && AsksBuy(lower) then AskBuy
    else if AsksDescription(lower) then AskDescription
    else AskGeneral
  }

  // ---------------------------------------------------------------------
  // The answer texts
  // ---------------------------------------------------------------------

  /** `<name> (<symbol>)`, the way every answer names an item. */
  function Label(item: Item): string {
    item.name + " (" + item.symbol + ")"
  }

  function PriceBase(item: Item): string {
    Label(item) + " costs $" + item.usdPrice + " USD."
  }

  /** The price answer: the USD sentence, then ` / <polPrice> POL.` when there is a POL price. */
  function PriceText(item: Item): (r: string)
    ensures |r| >= |PriceBase(item)| && r[..|PriceBase(item)|] == PriceBase(item)
    ensures item.polPrice.None? <==> |r| == |PriceBase(item)|
    ensures item.polPrice.Some? ==> r[|PriceBase(item)|..] == " / " + item.polPrice.value + " POL."
  {
    match item.polPrice
    case None => PriceBase(item)
    case Some(pol) => PriceBase(item) + " / " + pol + " POL."
  }

  // The fixed texts below are written as concatenations of short pieces, which
  // keeps facts about their individual characters cheap to prove.

  const BuyMiddle: string :=
      ", you'll typically connect "
    + "your crypto wallet to the "
    + "marketplace and use MATIC "
    + "(Polygon) or the equivalent "
    + "USD value. Specific "
    + "instructions are usually "
    + "provided on the NFT's page or "
    + "the marketplace's help "
    + "section. General steps: "
    + "1. Ensure your wallet is "
    + "funded. 2. Click the 'Buy' "
    + "button for "

  const BuyEnd: string := ". 3. Approve the transaction " + "in your wallet."

  function BuyText(item: Item): (r: string)
    ensures |r| > 7 && r[..7] == "To buy "
  {
    "To buy " + Label(item) + BuyMiddle + item.name + BuyEnd
  }

  function DescriptionText(item: Item): string {
    Label(item) + ": " + item.description
  }

  function GeneralText(item: Item): string {
    "I have information about " + Label(item) + ". You can ask for its description, price in USD, or how to buy it."
  }

  /** The answer for an identified item; never empty, so it always stops the later steps. */
  function ItemAnswer(intent: Intent, item: Item): (r: string)
    ensures r != []
  {
    match intent
    case AskPrice => PriceText(item)
    case AskBuy => BuyText(item)
    case AskDescription => DescriptionText(item)
    case AskGeneral => GeneralText(item)
  }

  /** The price answer shows the USD price and, when present, the POL price. */
  lemma PriceTextShowsPrices(item: Item)
    ensures Contains(PriceText(item), item.usdPrice)
    ensures item.polPrice.Some? ==> Contains(PriceText(item), item.polPrice.value)
  {
    var r := PriceText(item);
    var off := |Label(item)| + 8;
    assert r[off..off + |item.usdPrice|] == item.usdPrice;
    assert OccursAt(r, item.usdPrice, off);
    if item.polPrice.Some? {
      var p := item.polPrice.value;
      var at := |PriceBase(item)| + 3;
      assert r[at..at + |p|] == p;
      assert OccursAt(r, p, at);
    }
  }

  /** The description answer ends with the item's description. */
  lemma DescriptionTextShowsDescription(item: Item)
    ensures Contains(DescriptionText(item), item.description)
  {
    var r := DescriptionText(item);
    var off := |Label(item)| + 2;
    assert r[off..] == item.description;
    assert OccursAt(r, item.description, off);
  }

  // ---------------------------------------------------------------------
  // Listing the catalog
  // ---------------------------------------------------------------------

  const ListHeading: string := "Here are all the available NFTs " + "and their symbols: "

  predicate WantsList(lower: string) {
    Contains(lower, "list all nfts") || Contains(lower, "show all nfts")
  }

  /** One `- <name> (<symbol>)` line per catalog entry, in catalog order. */
  function ListLines(catalog: seq<Item>): seq<string> {
    seq(|catalog|, k requires 0 <= k < |catalog| => "- " + Label(catalog[k]))
  }

  function ListAll(catalog: seq<Item>): (r: string)
    ensures r != []
  {
    ListHeading + "\n" + Join(ListLines(catalog), "\n")
  }

  /** Read back line by line, the listing is the heading and then exactly one
      line per catalog entry, in catalog order (when no name or symbol holds a
      line break; an empty catalog leaves one empty line). */
  lemma ListAllLines(catalog: seq<Item>)
    requires forall k :: 0 <= k < |catalog| ==> '\n' !in catalog[k].name && '\n' !in catalog[k].symbol
    ensures |catalog| > 0 ==> Split(ListAll(catalog), '\n') == [ListHeading] + ListLines(catalog)
    ensures |catalog| == 0 ==> Split(ListAll(catalog), '\n') == [ListHeading, ""]
    ensures |catalog| > 0 ==> |Split(ListAll(catalog), '\n')| == |catalog| + 1
    ensures forall k :: 0 <= k < |catalog| ==> Split(ListAll(catalog), '\n')[k + 1] == "- " + Label(catalog[k])
  {
    var lines := ListLines(catalog);
    forall k | 0 <= k < |lines|
      ensures '\n' !in lines[k]
    {
      assert lines[k] == "- " + catalog[k].name + " (" + catalog[k].symbol + ")";
    }
    assert forall k :: 0 <= k < |ListHeading| ==> ListHeading[k] != '\n';
    assert ListAll(catalog) == ListHeading + ['\n'] + Join(lines, "\n");
    SplitAfterPiece(ListHeading, Join(lines, "\n"), '\n');
    if |catalog| > 0 {
      SplitJoin(lines, '\n');
    }
  }

  // ---------------------------------------------------------------------
  // The local answer
  // ---------------------------------------------------------------------

  /** The answer found without the language model, if any: the identified
      item's answer, else the catalog listing when asked for, else `None`. */
  function Resolve(input: string, catalog: seq<Item>): (r: Option<string>)
    ensures r.Some? ==> r.value != []
    ensures r.None? <==> Identify(catalog, Candidate(Lower(input))).None? && !WantsList(Lower(input))
    ensures Identify(catalog, Candidate(Lower(input))).None? && WantsList(Lower(input)) ==> r == Some(ListAll(catalog))
  {
    var lower := Lower(input);
    var found := Identify(catalog, Candidate(lower));
    if found.Some? then
      var item := catalog[found.value];
      Some(ItemAnswer(Classify(lower, item), item))
    else if WantsList(lower) then Some(ListAll(catalog))
    else None
  }

  /** A price question about the identified item shows its USD price and,
      when it has one, its POL price. */
  lemma PriceQueryShowsPrices(input: string, catalog: seq<Item>, i: nat)
    requires Identify(catalog, Candidate(Lower(input))) == Some(i)
    requires MentionsName(Lower(input), catalog[i]) && AsksPrice(Lower(input))
    ensures Resolve(input, catalog) == Some(PriceText(catalog[i]))
    ensures Contains(Resolve(input, catalog).value, catalog[i].usdPrice)
    ensures catalog[i].polPrice.Some? ==> Contains(Resolve(input, catalog).value, catalog[i].polPrice.value)
  {
    PriceTextShowsPrices(catalog[i]);
  }

  /** A question that spells out the identified item's name and says "buy",
      with no price word, is answered with the purchase steps. */
  lemma BuyQueryShowsSteps(input: string, catalog: seq<Item>, i: nat)
    requires Identify(catalog, Candidate(Lower(input))) == Some(i)
    requires MentionsName(Lower(input), catalog[i]) && !AsksPrice(Lower(input)) && Contains(Lower(input), "buy")
    ensures Resolve(input, catalog) == Some(BuyText(catalog[i]))
  {
  }

  /** A question with "about" or "description" is answered with the
      description, unless it spells out the identified item's name together
      with a price word or "buy" (those answers take precedence). */
  lemma AboutShowsDescription(input: string, catalog: seq<Item>, i: nat)
    requires Identify(catalog, Candidate(Lower(input))) == Some(i)
    requires AsksDescription(Lower(input))
    requires !(MentionsName(Lower(input), catalog[i]) && (AsksPrice(Lower(input)) || Contains(Lower(input), "buy")))
    ensures Resolve(input, catalog) == Some(DescriptionText(catalog[i]))
    ensures Contains(Resolve(input, catalog).value, catalog[i].description)
  {
    DescriptionTextShowsDescription(catalog[i]);
  }

  /** An identified item whose question is none of the above (no price or buy
      question spelling out its name, no "about" or "description") gets the
      generic prompt. */
  lemma UnclearQueryGetsPrompt(input: string, catalog: seq<Item>, i: nat)
    requires Identify(catalog, Candidate(Lower(input))) == Some(i)
    requires !(MentionsName(Lower(input), catalog[i]) && (AsksPrice(Lower(input)) || Contains(Lower(input), "buy")))
    requires !AsksDescription(Lower(input))
    ensures Resolve(input, catalog) == Some(GeneralText(catalog[i]))
  {
  }

  // ---------------------------------------------------------------------
  // The language-model fallback and the final text
  // ---------------------------------------------------------------------

  /** What a call to the hosted model gives back: its text, or a failure. */
  datatype Outcome = Answered(text: string) | Failed

  const TroubleMessage: string :=
      "I'm having trouble connecting "
    + "to my knowledge base right now. "
    + "Please try again later."

  const IssueMessage: string :=
      "I encountered an issue while "
    + "trying to get that information. "
    + "Please try asking in a different way."

  /** `s` holds no `*`. */
  predicate StarFree(s: string) {
    forall k :: 0 <= k < |s| ==> s[k] != '*'
  }

  /** `s.replace(/\*\/g, '')`. */
  function RemoveStars(s: string): (r: string)
    ensures StarFree(r)
    ensures forall c :: c != '*' ==> multiset(r)[c] == multiset(s)[c]
  {
    if |s| == 0 then []
    else
      assert s == [s[0]] + s[1..];
      (if s[0] == '*' then [] else [s[0]]) + RemoveStars(s[1..])
  }

  /** Removal works piece by piece, so the kept characters stay in order. */
  lemma {:induction false} RemoveStarsAppend(a: string, b: string)
    ensures RemoveStars(a + b) == RemoveStars(a) + RemoveStars(b)
  {
    if |a| > 0 {
      assert (a + b)[0] == a[0];
      assert (a + b)[1..] == a[1..] + b;
      RemoveStarsAppend(a[1..], b);
      var head: string := if a[0] == '*' then [] else [a[0]];
      assert RemoveStars(a + b) == head + (RemoveStars(a[1..]) + RemoveStars(b));
    } else {
      assert a + b == b;
    }
  }

  /** A text without `*` is left as it is; in particular removal is idempotent. */
  lemma {:induction false} RemoveStarsKeepsStarFree(s: string)
    requires StarFree(s)
    ensures RemoveStars(s) == s
  {
    if |s| > 0 {
      RemoveStarsKeepsStarFree(s[1..]);
    }
  }

  lemma RemoveStarsIdempotent(s: string)
    ensures RemoveStars(RemoveStars(s)) == RemoveStars(s)
  {
    RemoveStarsKeepsStarFree(RemoveStars(s));
  }

  /** A three-piece text whose pieces have no `*` is left as it is. */
  lemma StarFreePieces(a: string, b: string, c: string)
    requires StarFree(a) && StarFree(b) && StarFree(c)
    ensures RemoveStars(a + b + c) == a + b + c
  {
    RemoveStarsKeepsStarFree(a);
    RemoveStarsKeepsStarFree(b);
    RemoveStarsKeepsStarFree(c);
    RemoveStarsAppend(a + b, c);
    RemoveStarsAppend(a, b);
  }

  /** The pieces of the two fixed messages hold no `*`. Stated over parameters
      equal to the literals, so that the characters are checked apart from the
      `*` removal's own contract. */
  lemma TroubleStarFree(a: string, b: string, c: string)
    requires a == "I'm having trouble connecting "
    requires b == "to my knowledge base right now. "
    requires c == "Please try again later."
    ensures StarFree(a) && StarFree(b) && StarFree(c)
  {
  }

  lemma IssueStarFree(a: string, b: string, c: string)
    requires a == "I encountered an issue while "
    requires b == "trying to get that information. "
    requires c == "Please try asking in a different way."
    ensures StarFree(a) && StarFree(b) && StarFree(c)
  {
  }

  /** The two fixed fallback messages pass through the `*` removal unchanged. */
  lemma FixedMessagesStarFree()
    ensures RemoveStars(TroubleMessage) == TroubleMessage
    ensures RemoveStars(IssueMessage) == IssueMessage
  {
    TroubleStarFree("I'm having trouble connecting ", "to my knowledge base right now. ", "Please try again later.");
    StarFreePieces("I'm having trouble connecting ", "to my knowledge base right now. ", "Please try again later.");
    IssueStarFree("I encountered an issue while ", "trying to get that information. ", "Please try asking in a different way.");
    StarFreePieces("I encountered an issue while ", "trying to get that information. ", "Please try asking in a different way.");
  }

  /** The text before the `*` removal. The model is asked, with the user's
      original (not lower-cased) text, only when there is no local answer and
      a model is configured. */
  function RawReply(input: string, catalog: seq<Item>, hasModel: bool, ask: string -> Outcome): string {
    var local := Resolve(input, catalog);
    if local.Some? then local.value
    else if !hasModel then TroubleMessage
    else match ask(input)
      case Answered(text) => text
      case Failed => IssueMessage
  }

  /** The bot's reply to one user message. */
  function Reply(input: string, catalog: seq<Item>, hasModel: bool, ask: string -> Outcome): (r: string)
    ensures StarFree(r)
    ensures Resolve(input, catalog).None? && !hasModel ==> r == TroubleMessage
    ensures Resolve(input, catalog).None? && hasModel && ask(input).Failed? ==> r == IssueMessage
  {
    FixedMessagesStarFree();
    RemoveStars(RawReply(input, catalog, hasModel, ask))
  }

  /** A local answer never depends on whether a model is configured or what it would say. */
  lemma LocalAnswerIgnoresModel(input: string, catalog: seq<Item>,
                                hasModel1: bool, ask1: string -> Outcome,
                                hasModel2: bool, ask2: string -> Outcome)
    requires Resolve(input, catalog).Some?
    ensures Reply(input, catalog, hasModel1, ask1) == Reply(input, catalog, hasModel2, ask2)
    ensures Reply(input, catalog, hasModel1, ask1) == RemoveStars(Resolve(input, catalog).value)
  {
  }

  /** The model's text is shown with its `*` removed, and the model sees the input as typed. */
  lemma ModelAnswerShown(input: string, catalog: seq<Item>, ask: string -> Outcome)
    requires Resolve(input, catalog).None?
    requires ask(input).Answered?
    ensures Reply(input, catalog, true, ask) == RemoveStars(ask(input).text)
  {
  }
}

=== FILE: scenarios.dfy ===
/**
 * Two worked conversations with a one-item catalog, checked against the model:
 * a price question answered locally, and a greeting with no local answer and
 * no language model configured; and a white-space collapse example, two
 * words separated by two tabs. Some conversation steps are lemmas about a
 * parameter equal to the literal text, which keeps the verifier from
 * evaluating the whole pipeline on the literal at once.
 */
module Scenarios {
  import opened Wrappers
  import opened Strings
  import opened Catalog
  import opened Extraction
  import opened Resolver

  const Bloom: Item := Item("Eternal Bloom", "ETB", "A flower in bloom.", "120", None)

  const PriceQuestion: string := SpecificPhrase + "Eternal Bloom"

  const PriceAnswer: string := "Eternal Bloom (ETB) " + "costs $120 USD."

  lemma LowerAppend(a: string, b: string)
    ensures Lower(a + b) == Lower(a) + Lower(b)
  {
  }

  lemma PriceQuestionLowered()
    ensures Lower(PriceQuestion) == SpecificPhrase + "eternal bloom"
  {
    LowerAppend(SpecificPhrase, "Eternal Bloom");
    assert forall k :: 0 <= k < |SpecificPhrase| ==> !IsUpper(SpecificPhrase[k]);
    assert Lower("Eternal Bloom") == "eternal bloom";
  }

  /** The phrase followed by one line of text: the candidate is that text, trimmed. */
  lemma PhraseThenText(text: string)
    requires text != []
    requires forall k :: 0 <= k < |text| ==> !IsLineTerminator(text[k])
    ensures Candidate(SpecificPhrase + text) == Trim(text)
  {
    var lower := SpecificPhrase + text;
    assert lower[..|SpecificPhrase|] == SpecificPhrase;
    assert lower[|SpecificPhrase|..] == text;
    CandidateAfterPhrase(lower, 0);
  }

  lemma PriceQuestionCandidate(name: string)
    requires name == "eternal bloom"
    ensures Candidate(SpecificPhrase + name) == name
  {
    assert name != [] && Trimmed(name);
    assert forall k :: 0 <= k < |name| ==> !IsLineTerminator(name[k]);
    PhraseThenText(name);
    TrimmedAlready(name);
  }

  lemma BloomIdentified()
    ensures Identify([Bloom], "eternal bloom") == Some(0)
  {
    assert Lower(Bloom.name) == "eternal bloom";
    assert OccursAt("eternal bloom", "eternal bloom", 0);
  }

  lemma PriceQuestionAsksPrice()
    ensures MentionsName(SpecificPhrase + "eternal bloom", Bloom)
    ensures AsksPrice(SpecificPhrase + "eternal bloom")
  {
    var lower := SpecificPhrase + "eternal bloom";
    assert Lower(Bloom.name) == "eternal bloom";
    assert lower[|SpecificPhrase|..] == "eternal bloom";
    assert OccursAt(lower, "eternal bloom", |SpecificPhrase|);
    assert lower[23..26] == SpecificPhrase[23..26] == "usd";
    assert OccursAt(lower, "usd", 23);
  }

  /** The two pieces of the price answer hold no `*`. Stated over parameters
      equal to the literals, so that the characters are checked apart from the
      `*` removal's own contract. */
  lemma PriceAnswerPieces(a: string, b: string)
    requires a == "Eternal Bloom (ETB) " && b == "costs $120 USD."
    ensures StarFree(a) && StarFree(b)
  {
  }

  lemma BloomPriceText()
    ensures RemoveStars(PriceText(Bloom)) == PriceAnswer
  {
    assert PriceText(Bloom) == PriceAnswer;
    var a, b := "Eternal Bloom (ETB) ", "costs $120 USD.";
    PriceAnswerPieces(a, b);
    RemoveStarsKeepsStarFree(a);
    RemoveStarsKeepsStarFree(b);
    RemoveStarsAppend(a, b);
  }

  /** "how much is artwork in usd Eternal Bloom" is answered with the item's price. */
  lemma PriceExample(hasModel: bool, ask: string -> Outcome)
    ensures Reply(PriceQuestion, [Bloom], hasModel, ask) == PriceAnswer
  {
    PriceQuestionLowered();
    PriceQuestionCandidate("eternal bloom");
    BloomIdentified();
    PriceQuestionAsksPrice();
    PriceQueryShowsPrices(PriceQuestion, [Bloom], 0);
    BloomPriceText();
  }

  lemma ShortInputHasNoKeyword(x: string)
    requires |x| < 3
    ensures !Contains(x, SpecificPhrase)
    ensures forall j :: 0 <= j < |Keywords| ==> !Contains(x, Keywords[j])
    ensures !WantsList(x)
  {
  }

  lemma FirstCharOccurs(s: string, w: string)
    requires w != [] && Contains(s, w)
    ensures w[0] in s
  {
    var i :| 0 <= i <= |s| - |w| && OccursAt(s, w, i);
    assert s[i] == s[i..i + |w|][0];
  }

  /** "hi" is its own candidate: no phrase, no keyword, and no filler word. */
  lemma GreetingCandidate(x: string)
    requires x == "hi"
    ensures Candidate(x) == x
  {
    ShortInputHasNoKeyword(x);
    assert !UsesSpecificPattern(x);
    assert KeywordCut(x) == 0;
    assert x[0..] == x;
    assert Clean(x, false) && Trimmed(x) by {
      assert LeadingWord(x) == x;
    }
    LettersCollapse(x);
    StripFixesClean(x, false);
    TrimmedAlready(x);
  }

  lemma BloomLowered()
    ensures Lower(Bloom.name) == "eternal bloom"
    ensures Lower(Bloom.symbol) == "etb"
  {
  }

  lemma GreetingUnmatched(x: string)
    requires x == "hi"
    ensures Identify([Bloom], x).None?
  {
    BloomLowered();
    var n, sym := Lower(Bloom.name), Lower(Bloom.symbol);
    assert !Contains(n, x) by {
      if Contains(n, x) {
        FirstCharOccurs(n, x);
      }
    }
    assert !Contains(x, n) && sym != x;
    assert !Matches(Bloom, x);
  }

  /** "Hi" has no local answer; without a language model the reply is the fixed apology. */
  lemma NoModelExample(ask: string -> Outcome)
    ensures Reply("Hi", [Bloom], false, ask) == TroubleMessage
  {
    assert Lower("Hi") == "hi";
    GreetingCandidate("hi");
    GreetingUnmatched("hi");
    ShortInputHasNoKeyword("hi");
  }

  /** Two tabs between two lower-case words, as in "eternal\t\tbloom",
      collapse to one space. */
  lemma TabRunExample(a: string, w: string, b: string)
    requires |a| > 0 && forall i :: 0 <= i < |a| ==> 'a' <= a[i] <= 'z'
    requires |b| > 0 && forall i :: 0 <= i < |b| ==> 'a' <= b[i] <= 'z'
    requires w == "\t\t"
    ensures Collapse(a + w + b) == a + " " + b
  {
    CollapseRun(a, w, b);
    LettersCollapse(a);
    LettersCollapse(b);
  }

  /** A text of lower-case letters has no white space to collapse. */
  lemma LettersCollapse(s: string)
    requires forall i :: 0 <= i < |s| ==> 'a' <= s[i] <= 'z'
    ensures Collapse(s) == s
  {
    assert forall i :: 0 <= i < |s| ==> !IsSpace(s[i]);
    CollapseLeavesSingleSpaces(s);
  }
}

=== FILE: session.dfy ===
/**
 * The chat window as a state machine over user events: opening, closing,
 * typing, submitting, and the arrival of the bot's reply
 * (src/components/Chatbot.tsx, lines 12-15, 48-65, 169-170, 195, 207-215).
 */
module Session {
  import opened Strings
  import opened Catalog
  import opened Resolver

  datatype Sender = User | Bot

  datatype Message = Message(text: string, sender: Sender)

  /** The component's state: the message history, the input box, whether the
      window is open, and whether a reply is awaited (the typing indicator). */
  datatype Chat = Chat(messages: seq<Message>, input: string, isOpen: bool, isTyping: bool)

  datatype Event =
    | Open                 // the toggle button, shown only while closed
    | Close                // the X button, shown only while open
    | Edit(text: string)   // the input box's change handler
    | Submit               // Enter or the Send button
    | ReplyArrives(text: string)  // `processUserMessage` finishing

  const GreetingText: string :=
      "Hello! I'm your friendly art and "
    + "NFT assistant. Ask me about the "
    + "NFTs, the MUSEO DE ARTE "
    + "CONTEMPORANEO DE QUINTANA ROO, "
    + "or how to buy digital art!"

  const Greeting: Message := Message(GreetingText, Bot)

  /** The state after mounting: closed, so the effect has emptied history and input. */
  const Initial: Chat := Chat([], [], false, false)

  /** `input.trim() === ''`. */
  predicate IsBlank(s: string) {
    Trim(s) == []
  }

  /** Whether a submission goes through: the window is open, the input and the
      Send button are not disabled by a pending reply, and the input is not blank. */
  predicate Accepts(c: Chat) {
    c.isOpen && !c.isTyping && !IsBlank(c.input)
  }

  /** The state after one event. */
  function Step(c: Chat, e: Event): (r: Chat)
    ensures |r.messages| <= |c.messages| + 1
    ensures !e.Open? && !e.Close? ==> c.messages <= r.messages
    ensures r.isTyping ==> c.isTyping || e.Submit?
    ensures e.Submit? && IsBlank(c.input) ==> r == c
    ensures e.Submit? && c.isTyping ==> r == c
    ensures e.Submit? && Accepts(c) ==>
      r.messages == c.messages + [Message(c.input, User)] && r.isTyping && r.input == []
    ensures e.ReplyArrives? ==> r.messages == c.messages + [Message(e.text, Bot)] && !r.isTyping
    ensures e.ReplyArrives? ==> r.input == c.input && r.isOpen == c.isOpen
    ensures e.Open? && !c.isOpen ==> r.isOpen && r.messages == [Greeting]
    ensures e.Close? && c.isOpen ==> !r.isOpen && r.messages == [] && r.input == []
  {
    match e
    case Open =>
      if c.isOpen then c else c.(isOpen := true, messages := [Greeting])
    case Close =>
      if !c.isOpen then c else c.(isOpen := false, messages := [], input := [])
    case Edit(text) =>
      if c.isOpen && !c.isTyping then c.(input := text) else c
    case Submit =>
      if Accepts(c) then
        c.(messages := c.messages + [Message(c.input, User)], isTyping := true, input := [])
      else c
    case ReplyArrives(text) =>
      c.(messages := c.messages + [Message(text, Bot)], isTyping := false)
  }

  /** The state after a sequence of events. */
  function Run(c: Chat, es: seq<Event>): Chat
    decreases |es|
  {
    if |es| == 0 then c else Run(Step(c, es[0]), es[1..])
  }

  /** What every state reached from `Initial` satisfies: a closed window has an
      empty input box and shows only bot messages (replies that landed after
      closing); an open window starts with the greeting. */
  predicate Valid(c: Chat) {
    && (!c.isOpen ==> c.input == [] && forall k :: 0 <= k < |c.messages| ==> c.messages[k].sender == Bot)
    && (c.isOpen ==> |c.messages| >= 1 && c.messages[0] == Greeting)
  }

  lemma StepKeepsValid(c: Chat, e: Event)
    requires Valid(c)
    ensures Valid(Step(c, e))
  {
  }

  lemma {:induction false} RunKeepsValid(c: Chat, es: seq<Event>)
    requires Valid(c)
    ensures Valid(Run(c, es))
    decreases |es|
  {
    if |es| > 0 {
      StepKeepsValid(c, es[0]);
      RunKeepsValid(Step(c, es[0]), es[1..]);
    }
  }

  /** Every reachable state is valid. */
  lemma Reachable(es: seq<Event>)
    ensures Valid(Run(Initial, es))
  {
    RunKeepsValid(Initial, es);
  }

  /** Closing and reopening leaves nothing of the earlier conversation but the greeting. */
  lemma CloseThenOpenResets(c: Chat)
    requires c.isOpen
    ensures Run(c, [Close, Open]).messages == [Greeting]
    ensures Run(c, [Close, Open]).input == []
  {
  }

  /** An accepted submission followed by a reply adds exactly the user's
      message, as typed, and then the bot's text, and re-enables the input. */
  lemma SubmitThenAnswer(c: Chat, answer: string)
    requires Accepts(c)
    ensures Run(c, [Submit, ReplyArrives(answer)]).messages
      == c.messages + [Message(c.input, User), Message(answer, Bot)]
    ensures !Run(c, [Submit, ReplyArrives(answer)]).isTyping
    ensures Run(c, [Submit, ReplyArrives(answer)]).input == []
  {
    var c1 := Step(c, Submit);
    assert c1.messages == c.messages + [Message(c.input, User)];
    RunTwo(c, Submit, ReplyArrives(answer));
    AppendTwo(c.messages, Message(c.input, User), Message(answer, Bot));
  }

  lemma AppendTwo(xs: seq<Message>, a: Message, b: Message)
    ensures xs + [a] + [b] == xs + [a, b]
  {
  }

  lemma RunTwo(c: Chat, e1: Event, e2: Event)
    ensures Run(c, [e1, e2]) == Step(Step(c, e1), e2)
  {
    assert [e1, e2][1..] == [e2];
    assert Run(c, [e1, e2]) == Run(Step(c, e1), [e2]);
    assert [e2][1..] == [];
    assert Run(Step(c, e1), [e2]) == Run(Step(Step(c, e1), e2), []);
  }

  /** Every accepted submission ends with exactly one bot message, the
      pipeline's reply to the text as typed. */
  lemma SubmitThenReply(c: Chat, catalog: seq<Item>, hasModel: bool, ask: string -> Outcome)
    requires Accepts(c)
    ensures Run(c, [Submit, ReplyArrives(Reply(c.input, catalog, hasModel, ask))]).messages
      == c.messages + [Message(c.input, User), Message(Reply(c.input, catalog, hasModel, ask), Bot)]
  {
    SubmitThenAnswer(c, Reply(c.input, catalog, hasModel, ask));
  }

  /** The number of user messages in a history. */
  function UserCount(ms: seq<Message>): (n: nat)
    ensures n <= |ms|
  {
    if |ms| == 0 then 0 else (if ms[0].sender == User then 1 else 0) + UserCount(ms[1..])
  }

  lemma {:induction false} UserCountAppendBot(ms: seq<Message>, text: string)
    ensures UserCount(ms + [Message(text, Bot)]) == UserCount(ms)
  {
    if |ms| > 0 {
      assert (ms + [Message(text, Bot)])[1..] == ms[1..] + [Message(text, Bot)];
      UserCountAppendBot(ms[1..], text);
    } else {
      assert UserCount([Message(text, Bot)]) == UserCount([Message(text, Bot)][1..]);
    }
  }

  /** While a reply is awaited, no event but the reply itself lets a new user
      message in, and the window stays busy. */
  lemma {:induction false} TypingBlocksSubmissions(c: Chat, es: seq<Event>)
    requires c.isTyping
    requires forall k :: 0 <= k < |es| ==> !es[k].ReplyArrives?
    ensures Run(c, es).isTyping
    ensures UserCount(Run(c, es).messages) <= UserCount(c.messages)
    decreases |es|
  {
    if |es| > 0 {
      var c1 := Step(c, es[0]);
      assert UserCount(c1.messages) <= UserCount(c.messages) by {
        if es[0].Open? && !c.isOpen {
          assert UserCount([Greeting]) == UserCount([Greeting][1..]);
        }
      }
      TypingBlocksSubmissions(c1, es[1..]);
    }
  }
}

=== FILE: strings.dfy ===
/**
 * Models of the JavaScript string primitives the chat assistant relies on:
 * `toLowerCase`, `trim`, `includes`, `indexOf`, `lastIndexOf`, and the
 * character classes `\s` and `\w` of JavaScript regular expressions.
 */
module Strings {

  /** A character of JavaScript's `\s` class, which is also the set `trim` removes
      (the WhiteSpace and LineTerminator productions of ECMAScript). */
  predicate IsSpace(c: char) {
    || c == '\t' || c == '\n' || c == '\U{B}' || c == '\U{C}' || c == '\r' || c == ' '
    || c == '\U{A0}' || c == '\U{1680}' || ('\U{2000}' <= c <= '\U{200A}')
    || c == '\U{2028}' || c == '\U{2029}' || c == '\U{202F}' || c == '\U{205F}'
    || c == '\U{3000}' || c == '\U{FEFF}'
  }

  /** A character that the regular-expression `.` does not match. */
  predicate IsLineTerminator(c: char) {
    c == '\n' || c == '\r' || c == '\U{2028}' || c == '\U{2029}'
  }

  /** A character of the `\w` class, which is what `\b` looks at. */
  predicate IsWordChar(c: char) {
    ('a' <= c <= 'z') || ('A' <= c <= 'Z') || ('0' <= c <= '9') || c == '_'
  }

  /** White space is never part of a word. */
  lemma SpaceIsNotWord(c: char)
    ensures IsSpace(c) ==> !IsWordChar(c)
  {
  }

  predicate IsUpper(c: char) {
    'A' <= c <= 'Z'
  }

  function LowerChar(c: char): char {
    if IsUpper(c) then (c as int + 32) as char else c
  }

  /** `toLowerCase`, restricted to the ASCII letters. */
  function Lower(s: string): (r: string)
    ensures |r| == |s|
    ensures forall i :: 0 <= i < |r| ==> !IsUpper(r[i])
    ensures forall i :: 0 <= i < |r| && !IsUpper(s[i]) ==> r[i] == s[i]
    ensures forall i :: 0 <= i < |r| && IsUpper(s[i]) ==> r[i] as int == s[i] as int + 32
  {
    seq(|s|, i requires 0 <= i < |s| => LowerChar(s[i]))
  }

  /** `sub` occurs in `s` starting at index `i`. */
  predicate OccursAt(s: string, sub: string, i: int) {
    0 <= i && i + |sub| <= |s| && s[i..i + |sub|] == sub
  }

  /** `s.includes(sub)`. */
  predicate Contains(s: string, sub: string) {
    exists i | 0 <= i <= |s| - |sub| :: OccursAt(s, sub, i)
  }

  /** The first occurrence of `sub` in `s` at or after `from`, or -1. */
  function IndexFrom(s: string, sub: string, from: nat): (r: int)
    ensures r == -1 || (from <= r && OccursAt(s, sub, r))
    ensures r == -1 ==> forall j :: from <= j ==> !OccursAt(s, sub, j)
    ensures r >= 0 ==> forall j :: from <= j < r ==> !OccursAt(s, sub, j)
    decreases |s| - from
  {
    if from + |sub| > |s| then -1
    else if s[from..from + |sub|] == sub then from
    else IndexFrom(s, sub, from + 1)
  }

  /** `s.indexOf(sub)`: the leftmost occurrence, or -1. */
  function IndexOf(s: string, sub: string): (r: int)
    ensures r == -1 <==> !Contains(s, sub)
    ensures r >= 0 ==> OccursAt(s, sub, r) && forall j :: 0 <= j < r ==> !OccursAt(s, sub, j)
  {
    IndexFrom(s, sub, 0)
  }

  /** The last occurrence of `sub` in `s` starting at or before `upTo`, or -1. */
  function LastIndexUpTo(s: string, sub: string, upTo: nat): (r: int)
    requires upTo + |sub| <= |s|
    ensures r == -1 || (r <= upTo && OccursAt(s, sub, r))
    ensures r == -1 ==> forall j :: 0 <= j <= upTo ==> !OccursAt(s, sub, j)
    ensures r >= 0 ==> forall j :: r < j <= upTo ==> !OccursAt(s, sub, j)
  {
    if s[upTo..upTo + |sub|] == sub then upTo
    else if upTo == 0 then -1
    else LastIndexUpTo(s, sub, upTo - 1)
  }

  /** `s.lastIndexOf(sub)`: the rightmost occurrence, or -1. */
  function LastIndexOf(s: string, sub: string): (r: int)
    ensures r == -1 <==> !Contains(s, sub)
    ensures r >= 0 ==> OccursAt(s, sub, r) && forall j :: r < j ==> !OccursAt(s, sub, j)
  {
    if |sub| > |s| then -1 else LastIndexUpTo(s, sub, |s| - |sub|)
  }

  /** `s.trimStart()`. */
  function TrimStart(s: string): (r: string)
    ensures |r| <= |s| && r == s[|s| - |r|..]
    ensures forall i :: 0 <= i < |s| - |r| ==> IsSpace(s[i])
    ensures r == [] || !IsSpace(r[0])
  {
    if |s| > 0 && IsSpace(s[0]) then TrimStart(s[1..]) else s
  }

  /** `s.trimEnd()`. */
  function TrimEnd(s: string): (r: string)
    ensures |r| <= |s| && r == s[..|r|]
    ensures forall i :: |r| <= i < |s| ==> IsSpace(s[i])
    ensures r == [] || !IsSpace(r[|r| - 1])
  {
    if |s| > 0 && IsSpace(s[|s| - 1]) then TrimEnd(s[..|s| - 1]) else s
  }

  /** `s` neither starts nor ends with white space. */
  predicate Trimmed(s: string) {
    s == [] || (!IsSpace(s[0]) && !IsSpace(s[|s| - 1]))
  }

  /** `r` is the slice of `s` starting at `a` with only white space around it. */
  predicate SpaceBordered(s: string, r: string, a: int) {
    && 0 <= a && a + |r| <= |s| && r == s[a..a + |r|]
    && (forall i :: 0 <= i < a ==> IsSpace(s[i]))
    && (forall i :: a + |r| <= i < |s| ==> IsSpace(s[i]))
  }

  /** `s.trim()`: the slice of `s` left once the white space at both ends is gone. */
  function Trim(s: string): (r: string)
    ensures exists a :: SpaceBordered(s, r, a)
    ensures Trimmed(r)
    ensures r == [] <==> forall i :: 0 <= i < |s| ==> IsSpace(s[i])
  {
    var t := TrimStart(s);
    var r := TrimEnd(t);
    TrimParts(s, t, r);
    r
  }

  /** Stripping the leading white space (`t`) and then the trailing white
      space (`r`) leaves a trimmed slice of `s`. */
  lemma TrimParts(s: string, t: string, r: string)
    requires |t| <= |s| && t == s[|s| - |t|..]
    requires forall i :: 0 <= i < |s| - |t| ==> IsSpace(s[i])
    requires t == [] || !IsSpace(t[0])
    requires |r| <= |t| && r == t[..|r|]
    requires forall i :: |r| <= i < |t| ==> IsSpace(t[i])
    requires r == [] || !IsSpace(r[|r| - 1])
    ensures SpaceBordered(s, r, |s| - |t|)
    ensures Trimmed(r)
    ensures r == [] <==> forall i :: 0 <= i < |s| ==> IsSpace(s[i])
  {
    var a := |s| - |t|;
    assert forall i :: a <= i < |s| ==> s[i] == t[i - a];
    if r != [] {
      assert r[0] == t[0];
      assert !IsSpace(s[a]);
    }
  }

  /** A string without white space at either end is its own trim. */
  lemma TrimmedAlready(s: string)
    requires Trimmed(s)
    ensures Trim(s) == s
  {
    assert TrimStart(s) == s;
  }

  /** `lines.join(sep)`. */
  function Join(lines: seq<string>, sep: string): string
    decreases |lines|
  {
    if |lines| == 0 then []
    else if |lines| == 1 then lines[0]
    else lines[0] + sep + Join(lines[1..], sep)
  }

  /** `s.split(sep)` for a one-character separator: the pieces between separators,
      so always at least one (`"".split(sep)` is `[""]`). */
  function Split(s: string, sep: char): (r: seq<string>)
    ensures |r| >= 1
    ensures forall k :: 0 <= k < |r| ==> sep !in r[k]
  {
    if |s| == 0 then [[]]
    else
      var rest := Split(s[1..], sep);
      if s[0] == sep then [[]] + rest
      else [[s[0]] + rest[0]] + rest[1..]
  }

  /** Splitting and joining back with the same separator gives the string back. */
  lemma {:induction false} JoinSplit(s: string, sep: char)
    ensures Join(Split(s, sep), [sep]) == s
  {
    if |s| > 0 {
      JoinSplit(s[1..], sep);
      var rest := Split(s[1..], sep);
      if s[0] == sep {
        assert ([[]] + rest)[1..] == rest;
      } else {
        var r := [[s[0]] + rest[0]] + rest[1..];
        if |rest| > 1 {
          assert r[1..] == rest[1..];
          assert Join(rest, [sep]) == rest[0] + [sep] + Join(rest[1..], [sep]);
        }
      }
    }
  }

  lemma {:induction false} SplitAfterPiece(a: string, b: string, sep: char)
    requires sep !in a
    ensures Split(a + [sep] + b, sep) == [a] + Split(b, sep)
  {
    if |a| == 0 {
      assert (a + [sep] + b)[1..] == b;
    } else {
      var x := a + [sep] + b;
      assert x[0] == a[0] && a[0] != sep;
      assert x[1..] == a[1..] + [sep] + b;
      SplitAfterPiece(a[1..], b, sep);
      assert [a[0]] + a[1..] == a;
    }
  }

  lemma {:induction false} SplitPiece(a: string, sep: char)
    requires sep !in a
    ensures Split(a, sep) == [a]
  {
    if |a| > 0 {
      assert a[0] != sep;
      SplitPiece(a[1..], sep);
      assert [a[0]] + a[1..] == a;
    }
  }

  /** Joining pieces that hold no separator and splitting again gives the pieces back. */
  lemma {:induction false} SplitJoin(lines: seq<string>, sep: char)
    requires |lines| >= 1
    requires forall k :: 0 <= k < |lines| ==> sep !in lines[k]
    ensures Split(Join(lines, [sep]), sep) == lines
  {
    if |lines| == 1 {
      SplitPiece(lines[0], sep);
    } else {
      SplitJoin(lines[1..], sep);
      SplitAfterPiece(lines[0], Join(lines[1..], [sep]), sep);
    }
  }
}

=== FILE: wrappers.dfy ===
/** The optional-value datatype shared by the chat assistant modules. */
module Wrappers {

  /** `None` stands for JavaScript's `null`, `undefined` or a falsy value. */
  datatype Option<+T> = None | Some(value: T)
}
